=== FILE: README.md ===
# squeekboard core, modelled in Dafny

squeekboard is an on-screen keyboard for Wayland. This project models the
parts of its Rust core that decide what the keyboard does, and proves
properties of them:

- **Event loop** (`event_loop.dfy`). `handle_event` advances the actor's
  state by one event. It computes the commands that carry the visible
  outcome from the old state to the new one, and it reconciles the single
  wakeup slot with the wakeup the new state asks for. The actor is an
  `Actor` record of functions, one per trait method the loop calls. An
  `Instant` is a whole number of milliseconds.
- **Submission arbiter** (`submission.dfy`). The `Submission` class decides
  for each key press whether text is committed through the input method or
  raw key codes go to the virtual keyboard. It also keeps the modifier mask
  and the selected keymap in step with the keys held down. Both outward
  sinks are one append-only trace `sent`. Every method is proved to take the
  object's `Model()` to the value that a pure function of the same name
  (suffix `F`) computes, and the lemmas about those functions state what
  the arbiter promises.
- **Input-method protocol state** (`imservice.dfy`). `IMService` keeps the
  double-buffered `pending`/`current` state of the input-method protocol
  and a wrapping 32-bit serial. It holds the handlers for protocol events,
  the decoders for content purpose, change cause and hint bits, and the
  gating of submissions on an active input method.
- **Helpers** (`util.dfy`):
  - `vec_remove`;
  - ceiling division with Rust's truncating `/` and `%`;
  - `Rational` ceiling and multiplication;
  - `cycle_count`, as an index function.
- **Layout action builder** (`parsing.dfy`). From the metadata a layout file
  gives a button, it decides:
  - what the button does (`create_action`);
  - which key symbols the layout needs (`extract_symbol_names`);
  - the key codes each button gets;
  - the button's label and outline (`create_button`).

  Problems are returned as a list of reports in the order the source
  reports them. Whether XKB knows a key symbol name is a parameter.

`wrappers.dfy` holds `Option` and `Result`. `keyboard_types.dfy` holds the
key and action types that the arbiter and the parser share; they come from
`src/keyboard.rs` and `src/action.rs`, which are not part of this model.

As written, `select_keymap` records the new keymap index before it releases
the held keys. A nested reselection for a held key of another keymap can
therefore leave the recorded index different from the keymap sent last. The
model keeps this behaviour; `Submission.KeymapIndexDivergence` exhibits it.

## Model

| member | source | states |
|---|---|---|
| EventLoop.NewLoopState | src/event_loop/mod.rs:83-89 | a fresh loop state holds the initial state, has no wakeup scheduled, and was last updated at the creation instant |
| EventLoop.ScheduleAfterEvent | src/event_loop/mod.rs:118-138 | a non-timeout event keeps the slot; a due timeout clears it; an early timeout re-arms it at the later of its own instant and now + 10 ms |
| EventLoop.MergeWake | src/event_loop/mod.rs:141-165 | the slot is empty iff both inputs are; the result is one of the two inputs and no later than either present one; with no desire the slot is kept |
| EventLoop.HandleEvent | src/event_loop/mod.rs:98-168 | new state is `apply_event(old, event, now)`; `last_update` is now; commands go from the old outcome at the old update instant to the new outcome at now; the slot is the merge of the post-event schedule with the desired wakeup |
| EventLoop.DesiredWakeNeverMissed | src/event_loop/mod.rs:141-165 | whenever the new state desires a wakeup, the slot holds one no later than it |
| EventLoop.EmptySlotOnlyWhenNothingPending | src/event_loop/mod.rs:141-165 | the slot ends empty iff no wakeup is desired and the event left nothing scheduled |
| EventLoop.DueTimeoutClearsSlot | src/event_loop/mod.rs:130-135 | a due timeout whose new state desires no wakeup leaves the slot empty |
| EventLoop.EarlyTimeoutRearmed | src/event_loop/mod.rs:120-129 | an early timeout whose new state desires no wakeup is re-armed at max(when, now + 10) |
| EventLoop.OtherEventKeepsSlot | src/event_loop/mod.rs:136-165 | a non-timeout event keeps the previous slot unless the new state desires an earlier wakeup |
| EventLoop.HidingScenario | src/event_loop/mod.rs:191-213 | becoming inactive shows the panel and schedules the hide; the timeout reached at that instant hides it and clears the slot |
| Util.Position | src/util.rs:285-288 | the index of the first element satisfying the predicate, and None iff none does |
| Util.RemoveAt | src/util.rs:285-288 | `Vec::remove`: one shorter, with the elements before and after the index kept in order |
| Util.RemoveFirst | src/util.rs:285-288 | returns None and the vector unchanged iff nothing matches; otherwise returns a matching element |
| Util.VecRemove | src/util.rs:285-288 | the loop that searches and removes yields exactly `RemoveFirst`: the first match removed and returned, the rest kept in order |
| Util.TruncDivRem | src/util.rs:204-211 | Rust's truncating `/` and `%`: `a == b*q + r`, `|r| < |b|`, the remainder has the sign of `a`, and the quotient's sign follows the operands' |
| Util.CeilQuotientUnique | src/util.rs:204-211 | there is at most one ceiling quotient of two integers |
| Util.DivCeilAsWritten | src/util.rs:204-211 | the code as written: the ceiling for an exact quotient or operands of equal sign, one above the ceiling otherwise |
| Util.DivCeilAsWrittenOffByOne | src/util.rs:204-211 | as written, `-7 div_ceil 2` is -2, while the ceiling of -3.5 is -3 |
| Util.DivCeil | src/util.rs:204-211 | the ceiling quotient for all operands; for `a >= 0` and `b > 0` it is the least `q` with `q*b >= a` |
| Util.DivCeilBounds | src/util.rs:204-211 | the truncated quotient, and the quotient plus one when the remainder is non-zero, fit in i32 |
| Util.U32AsI32 | src/util.rs:219-223 | the `u32 as i32` cast keeps values up to `i32::MAX` and wraps larger ones to negative values |
| Util.RationalCeil | src/util.rs:219-223 | as written, on the wrapping `u32 as i32` cast and the as-written `div_ceil`: the ceiling of numerator over cast denominator when the division is exact or their signs agree, one above it otherwise; for a non-negative numerator and a denominator up to `i32::MAX`, `(c-1)*d < n <= c*d` |
| Util.RationalCeilCorrected | src/util.rs:219-223 | the ceiling of the rational itself, with no cast, for every non-zero `u32` denominator and every sign: `(c-1)*d < n <= c*d`; it lies between zero and the numerator, so it fits in i32 |
| Util.RationalCeilOffByOne | src/util.rs:219-223 | as written, `-7/2` rounds up to -2 (ceiling -3); `-1/2^31`, whose denominator casts to `i32::MIN`, rounds up to 1 (ceiling 0); `1/(2^32-1)`, whose denominator casts to -1, rounds up to -1 (ceiling 1) |
| Util.MulInt | src/util.rs:225-233 | the numerator is multiplied by `m` and the denominator kept, so the value is multiplied by `m` |
| Util.Mul | src/util.rs:235-243 | numerators are multiplied and denominators are multiplied; the product's value is then the product of the values, with a non-zero denominator |
| Util.NumberedCopy | src/util.rs:300-304 | one pass over the items, each paired with the pass number |
| Util.CycleCountAt | src/util.rs:294-306 | the k-th item is `(items[k mod n], k div n)` |
| Util.CycleCount | src/util.rs:294-306 | the first `c` passes over `n` items yield `c*n` items |
| Util.CycleCountExample | src/util.rs:323-329 | the first seven items of `cycle_count(5..8)` are (5,0),(6,0),(7,0),(5,1),(6,1),(7,1),(5,2) |
| ImService.HintFromBits | src/imservice.rs:206-221 | the hint is accepted iff no bit outside the ten defined flags is set, and then unchanged |
| ImService.HintUnionAccepted | src/imservice.rs:206-221 | a union of accepted hints is accepted |
| ImService.PurposeDiscriminant | src/imservice.rs:230-245 | each purpose's discriminant is at most 13 |
| ImService.ContentPurposeFrom | src/imservice.rs:256-278 | decoding succeeds iff the number is at most 13, and yields the purpose with that discriminant |
| ImService.PurposeRoundTrip | src/imservice.rs:230-278 | decoding a purpose's discriminant gives the purpose back, and discriminants are distinct |
| ImService.PurposeDecodeEncode | src/imservice.rs:256-278 | a decoded number is the discriminant of its purpose; 1 decodes to Alpha |
| ImService.CauseDiscriminant | src/imservice.rs:282-285 | each change cause's discriminant is 0 or 1 |
| ImService.ChangeCauseFrom | src/imservice.rs:287-296 | decoding succeeds iff the number is 0 or 1, with InputMethod for 0 and Other for 1 |
| ImService.EventFor | src/imservice.rs:408-423 | `Active` with the current hint and purpose iff active, otherwise `InactiveSince` the given instant |
| ImService.IMService.constructor | src/imservice.rs:309-320 | both states default, empty preedit, serial 0, nothing sent |
| ImService.IMService.HandleActivate | src/imservice.rs:62-71 | `pending` becomes the default state with `active` set, and the preedit string is cleared; `current` is untouched |
| ImService.IMService.HandleDeactivate | src/imservice.rs:75-83 | only `pending.active` is cleared |
| ImService.IMService.HandleSurroundingText | src/imservice.rs:87-99 | only the pending surrounding text and cursor change |
| ImService.IMService.HandleContentType | src/imservice.rs:103-127 | undefined hint bits give NONE and an unknown purpose gives Normal, each with one warning; only those pending fields change |
| ImService.IMService.HandleTextChangeCause | src/imservice.rs:131-147 | an unknown cause gives InputMethod with one warning; only that pending field changes |
| ImService.IMService.HandleDone | src/imservice.rs:151-159 | `current` becomes `pending`, the serial increments modulo 2^32, and the event for the new `current` is sent |
| ImService.IMService.HandleUnavailable | src/imservice.rs:164-175 | `current.active` is cleared and `InactiveSince` is sent |
| ImService.IMService.CommitString | src/imservice.rs:362-372 | succeeds iff `current` is active, and then sends the string |
| ImService.IMService.DeleteSurroundingText | src/imservice.rs:374-390 | succeeds iff `current` is active, and then sends both lengths |
| ImService.IMService.Commit | src/imservice.rs:392-402 | succeeds iff `current` is active, and then sends the current serial |
| ImService.IMService.IsActive | src/imservice.rs:404-406 | active iff submissions would succeed |
| ImService.ActivationSequence | src/imservice.rs:62-159 | activate, set the content type, then done: the service is active with the validated hint, announced it once, has serial 1, and commits succeed |
| Submission.RawMask | src/submission.rs:238-247 | the mask holds exactly the raw bits of the held modifiers |
| Submission.MaskMatchesHeld | src/submission.rs:238-253 | a modifier's bit is in the mask iff the modifier is held |
| Submission.ClearAllModifiersF | src/submission.rs:261-270 | no modifier remains, and an empty mask is sent only when some modifier was held |
| Submission.VirtualPressedIds | src/submission.rs:272-284 | every raw-pressed key's id is listed, and every listed id is that of a raw-pressed key |
| Submission.VirtualPressedIdsConcat | src/submission.rs:272-284 | the ids of a concatenation are the ids of the first part followed by those of the second, so the ids come in the order of `pressed` |
| Submission.VirtualPressedIdsSingle | src/submission.rs:272-284 | a single entry contributes its id iff it is a raw press, and nothing otherwise |
| Submission.SelectKeymapF | src/submission.rs:296-304 | a no-op for the selected index; otherwise keymaps are kept and the trace grows only by releases, an empty mask and keymaps; every one-code raw press is kept or its release sent; with distinct ids a switch leaves exactly the input-method entries, in order, having sent the release of every one-code raw press; when every one-code raw press is on keymap `idx`, `idx` is the index recorded |
| Submission.ReleaseAllF | src/submission.rs:272-284 | releasing the ids keeps keymaps and only sends releases, an empty mask and keymaps; every one-code raw press is kept or its release sent; with distinct ids no entry of a released id remains, the release of every one-code raw press among them is sent, and the input-method entries are untouched when none of them is released; when every one-code raw press is on the recorded keymap, its index stays recorded |
| Submission.HandleReleaseF | src/submission.rs:190-218 | a release keeps keymaps and only sends releases, an empty mask and keymaps; every one-code raw press is kept or its release sent; with distinct ids no entry of the key remains, and the input-method entries are untouched unless the key is one of them; when every one-code raw press is on the recorded keymap, its index stays recorded; releasing a one-code key of the recorded keymap removes exactly its first entry and appends exactly its release |
| Submission.UseLayoutF | src/submission.rs:306-319 | the new keymaps replace the old ones and the first one is sent last; when every one-code raw press is on keymap 0, index 0 is recorded |
| Submission.PressKeycodesF | src/submission.rs:152-183 | the raw path keeps keymaps and only extends the trace, with virtual-keyboard requests; every one-code raw press is kept or its release sent; with distinct ids, `pressed` is left alone when no key code needs another keymap, and otherwise reduced to its input-method entries; the modifiers are cleared exactly when some key code needs another keymap, and otherwise the recorded index is kept |
| Submission.Submission.PressKeycode | src/submission.rs:155-182 | one key code: the keymap is selected, then either one switch (count 1) or a press and its release are appended to the trace |
| Submission.PressRequests | src/submission.rs:158-181 | one key code of a one-code key is pressed; one of a many-code key is pressed, then released |
| Submission.HandlePressF | src/submission.rs:108-188 | committed text only appends `(id, IMService)` to `pressed` and the string and a commit with the serial to the trace, leaving modifiers, keymaps and index alone; on the raw path the modifiers are cleared exactly when some key code needs another keymap, and otherwise the index is kept; there every one-code raw press is kept or its release sent, and with distinct ids `pressed` becomes that of `PressKeycodesF` followed by `(id, VirtualKeyboard(keycodes))` |
| Submission.Submission.constructor | src/submission.rs:95-104 | nothing held, nothing pressed, no keymaps, no index |
| Submission.Submission.HandlePress | src/submission.rs:108-188 | the new state is `HandlePressF` of the old state and the input method's committed state |
| Submission.Submission.TryCommitText | src/submission.rs:115-150 | text is committed, with a commit of the current serial, exactly when the input method is active, no modifier is held and the data is text |
| Submission.Submission.PressKeycodes | src/submission.rs:152-183 | the loop over key codes reaches `PressKeycodesF` |
| Submission.Submission.HandleRelease | src/submission.rs:190-218 | the new state is `HandleReleaseF` of the old |
| Submission.Submission.HandleAddModifier | src/submission.rs:220-227 | the modifier is appended and the new mask sent; the modifier is then active |
| Submission.Submission.HandleDropModifier | src/submission.rs:229-236 | the first entry of the key is removed and the new mask sent |
| Submission.Submission.UpdateModifiers | src/submission.rs:238-247 | sends the mask of the held modifiers and changes nothing else |
| Submission.Submission.IsModifierActive | src/submission.rs:249-253 | true iff some held entry carries the modifier |
| Submission.Submission.GetActiveModifiers | src/submission.rs:255-259 | exactly the active modifiers |
| Submission.Submission.ClearAllModifiers | src/submission.rs:261-270 | the new state is `ClearAllModifiersF` of the old |
| Submission.Submission.ReleaseAllVirtualKeys | src/submission.rs:272-284 | the loop over the raw-pressed ids reaches `ReleaseAllF` |
| Submission.Submission.SelectKeymap | src/submission.rs:296-304 | the new state is `SelectKeymapF` of the old |
| Submission.Submission.UseLayout | src/submission.rs:306-319 | the new state is `UseLayoutF` of the old |
| Submission.SelectKeymapSwitches | src/submission.rs:261-304 | switching ends with no modifier and the new keymap sent last; an empty mask is sent first iff a modifier was held, and never again; with distinct ids the release of every one-code raw press is sent before the new keymap |
| Submission.KeymapIndexDivergence | src/submission.rs:296-304 | as written, selecting keymap 0 while a key of keymap 1 is held records index 1 but sends keymap 0 last |
| Submission.ReleaseEmission | src/submission.rs:190-218 | exactly a one-code raw press sends its release, as the last request; when that release first switches keymaps, the modifiers are cleared and the key code's keymap is sent just before the release, and with distinct ids only the input-method entries of the other keys stay pressed; any other entry of the key is just forgotten and nothing is sent |
| Submission.ReleaseUnknownKey | src/submission.rs:190-192 | releasing a key that is not held changes nothing |
| Submission.UseLayoutResets | src/submission.rs:306-319 | after a new layout no modifier is held and, with distinct ids, exactly the input-method entries stay pressed and every one-code raw press has been released |
| Submission.PressesConcat | src/submission.rs:152-183 | the presses of a concatenation are the concatenated presses |
| Submission.PressesOfReleases | src/submission.rs:190-304 | releases, empty masks and keymaps contain no press |
| Submission.RawPressesInOrder | src/submission.rs:152-183 | the raw path presses every key code once, in order |
| Submission.MultiKeycodesReleasedAtOnce | src/submission.rs:170-181 | for a many-code key, every press is followed at once by the release of the same code |
| Submission.CommitsAsText | src/submission.rs:115-150 | the text path applies iff an input method is linked and active, no modifier is held and the data is text |
| Submission.PressUsesInputMethodOnlyForText | src/submission.rs:115-150 | the input method receives something iff the text path applies, and then exactly the string and a commit with the serial |
| Submission.RawPressSendsKeycodes | src/submission.rs:152-187 | when the text path does not apply, the press sends each key code's press once, in order |
| Submission.PressReleaseScenario | src/submission.rs:108-218 | pressing and releasing a one-code key sends its press and its release and forgets the key |
| Submission.PressOneKeycode | src/submission.rs:108-188 | pressing a one-code key on a fresh arbiter sends exactly its press and remembers the key as pressed on the virtual keyboard |
| Submission.ReleaseOneKeycode | src/submission.rs:190-218 | releasing that key sends exactly its release and leaves no key pressed |
| Submission.CommitTextScenario | src/submission.rs:108-218 | text with an active input method is committed, and its release sends nothing |
| Parsing.HexDigits | src/data/parsing.rs:417 | at least one hexadecimal digit, with a leading zero only for zero itself |
| Parsing.HexDigitsValue | src/data/parsing.rs:417 | the hexadecimal digits of `n` denote `n` |
| Parsing.PaddedDigits | src/data/parsing.rs:417 | zero padding to four digits keeps the digits hexadecimal and keeps their value; at least four digits, with a leading zero only when exactly four |
| Parsing.LeadingZerosValue | src/data/parsing.rs:417 | zero padding does not change the denoted number |
| Parsing.UnicodeKeysym | src/data/parsing.rs:417 | `U` then at least four upper-case hexadecimal digits that denote the code point, with no leading zero beyond the padding to four |
| Parsing.PeriodKeysym | src/data/parsing.rs:701-725 | "." gives `U002E` |
| Parsing.CodepointKeysym | src/data/parsing.rs:412-418 | the character itself when XKB knows it, else exactly its `U{:04X}` name: `U`, the code point's hexadecimal digits zero-padded to four |
| Parsing.TextKeysyms | src/data/parsing.rs:412-419 | one key symbol per code point, in order |
| Parsing.ChooseSubmission | src/data/parsing.rs:311-334 | exactly one of action, keysym, text and modifier decides; none gives the name as text; more than one gives empty text and one warning |
| Parsing.FilterViewName | src/data/parsing.rs:336-354 | an existing view is kept; any other is replaced by "base" with one warning |
| Parsing.ModifierAction | src/data/parsing.rs:421-443 | Control, Alt and Mod4 are applied; any other modifier submits nothing, with one bug report |
| Parsing.TextAction | src/data/parsing.rs:407-420 | the text is committed unless it has a NUL, which is reported; keys are one per code point |
| Parsing.KeysymAction | src/data/parsing.rs:389-406 | a valid keysym is kept; otherwise "space", with one warning |
| Parsing.CreateAction | src/data/parsing.rs:290-445 | with a "base" view, every view target names an existing view; a conflict gives empty text and one warning; no field gives the name as text |
| Parsing.CreateActionSingleField | src/data/parsing.rs:311-443 | each single field gives its own kind of action; views are filtered, one warning per missing view; `latches` is `pops`, defaulting to true |
| Parsing.PeriodButton | src/data/parsing.rs:701-725 | a button "." with only a label submits "." with the key `U002E` and no warning |
| Parsing.PeriodText | src/data/parsing.rs:701-725 | the text "." submits "." with the key `U002E` and no warning when "." is not a keysym |
| Parsing.ExtractSymbolNamesConcat | src/data/parsing.rs:520-535 | extracting from a concatenation concatenates the extractions |
| Parsing.ExtractSymbolNames | src/data/parsing.rs:520-535 | every extracted name is a key symbol of some submitting button, or BackSpace of an erasing one |
| Parsing.ExtractSymbolNamesCovers | src/data/parsing.rs:520-535 | every symbol a button needs is extracted |
| Parsing.ExtractSymbolNamesExamples | src/data/parsing.rs:744-772 | the repository's examples give ["a", "c"] and ["BackSpace"] |
| Parsing.ButtonKeycodes | src/data/parsing.rs:184-204 | one key code per key symbol, in order; an erasing button gets exactly the code of BackSpace |
| Parsing.SymbolMapSuffices | src/data/parsing.rs:676-689 | a symbol map covering the extracted names gives every button its key codes, and an erasing one exactly one |
| Parsing.ChooseLabel | src/data/parsing.rs:464-481 | label, else icon, else text (empty and reported when it has a NUL), else name; a NUL in a label or icon panics |
| Parsing.ChooseOutlineName | src/data/parsing.rs:483-496 | a given, defined outline is kept; a given, undefined one becomes "default" with one warning; none gives "default" |
| Parsing.ChooseSize | src/data/parsing.rs:498-504 | the chosen outline's size, else 1×1 with one warning |
| Parsing.CreateButton | src/data/parsing.rs:449-518 | a NUL in the name panics; the button has the chosen label, outline and size and the key's action and codes; it panics exactly on a bad name, label, icon or outline name |
| Parsing.DefinedOutlineUsed | src/data/parsing.rs:483-515 | with a "default" outline, every button's outline is defined, and its size is that outline's |

## Left out

- The C/FFI shims (`extern "C"` handlers, `check_imservice`, `imservice_destroy_im`, `submission_use_layout`, `submission_hint_available`), the raw-pointer wrappers and `into_cstring` are not modelled. The handlers are the `IMService` methods themselves.
- `Instant::now()` and protocol timestamps are parameters. The channel send in `send_event` becomes the `sentEvents` trace, and the calls to the input method become requests in the arbiter's trace.
- The event-loop driver (threads, channels) and the concrete application state are not part of this model; the actor is abstract.
- `state::Application` and the `keyboard.rs`/`action.rs` logic are not part of this model; only their types are.
- Floating point and geometry (`add_offsets`, view centering, margins, `find_max_double`) are not modelled. An outline's width and height are carried as reals and only copied.
- YAML deserialisation and file loading are not modelled. This includes the `Mod1` spelling of `Alt`, which is resolved there.
- `generate_keycodes` and `generate_keymaps` are not part of this model. The symbol map is a parameter of `Parsing.ButtonKeycodes`.
- The XKB keysym lookup is the parameter `keysymValid`.
- Warnings go through a handler in the source. Here they are returned as lists of reports, or of strings in `IMService`.
- Util.VecRemove: returns the new vector rather than removing in place; `Submission.HandleDropModifier` assigns it back to the field.
- Util.MulInt: numerator overflow is excluded by its requires rather than modelled as a panic or a wrap-around. Util.Mul does the same for the numerator and the denominator.
- Submission.Submission.UseLayout: requires that every held raw key code names one of the new keymaps. The source panics only when such a key's release actually indexes past the new keymaps.
- Util.DivisionDefined: `Util.DivCeilAsWritten`, `Util.DivCeil` and `Util.RationalCeil` require a non-zero divisor and exclude `i32::MIN / -1`. In Rust both panic (src/util.rs:204-211); the model does not represent those panics. `RationalCeil` and `RationalCeilCorrected` likewise require a non-zero denominator.
- Submission.SelectKeymapF: requires `idx < |keymaps|`, as do `Submission.HandlePressF`, `Submission.PressKeycodesF` and `Submission.Submission.HandlePress` for every key code's keymap index. The source indexes `keymap_fds[idx]` (src/submission.rs:296-304) and panics on an out-of-range index; the model does not represent that panic.
- Submission.SelectKeymapF: which entries remain in `pressed`, and that every one-code raw press is released, is stated only when the key ids in `pressed` are distinct. With a repeated id, only "each one-code raw press is kept or its release sent" is promised. The same scope applies to `Submission.ReleaseAllF`, `Submission.HandleReleaseF`, `Submission.PressKeycodesF` and `Submission.HandlePressF`.
- Parsing.CreateButton: a `Panic` outcome stands for the process abort of a failed `expect`. Warnings reported before the panic are not kept.

## Findings

| source | as written | input that shows it | evidently intended | confidence | as-written member | corrected member |
|---|---|---|---|---|---|---|
| src/util.rs:204-211 | `div_ceil` adds one to the truncated quotient whenever the truncated remainder is non-zero | `-7 div_ceil 2` gives -2 | the ceiling -3: add one only when the remainder is non-zero and the operands have the same sign | medium; not executed | Util.DivCeilAsWrittenOffByOne | Util.DivCeil |
| src/util.rs:219-223 | `Rational::ceil` divides with the as-written `div_ceil`, after a wrapping `u32 as i32` cast of the denominator | `Rational { numerator: -7, denominator: 2 }` gives -2; `Rational { numerator: -1, denominator: 0x8000_0000 }` gives 1; `Rational { numerator: 1, denominator: 0xFFFF_FFFF }` gives -1 | the ceilings of the rationals: -3, 0 and 1 | medium; not executed | Util.RationalCeilOffByOne | Util.RationalCeilCorrected |

=== FILE: event_loop.dfy ===
/** One iteration of the event loop of `src/event_loop/mod.rs`: the actor's
    state is advanced by an event, the commands that carry the visible
    outcome along are computed, and the single wakeup slot is reconciled
    with the wakeup the new state asks for.

    Time is counted in whole milliseconds, so the 10 ms floor for early
    timeouts is `+ 10`. The actor is abstract: its behaviour is an `Actor`
    record of functions, one per method of the `ActorState`, `Outcome` and
    `Event` traits that the loop calls. */
module EventLoop {
  import opened Wrappers

  /** `std::time::Instant`, in milliseconds. */
  type Instant = int

  /** The delay an early timeout is pushed back by at least. */
  const MIN_RESCHEDULE: int := 10

  /** The trait methods the loop uses, for actor state `S`, events `E`,
      outcomes `O` and commands `C`. */
  datatype Actor<!S, !E, !O, !C> = Actor(
    applyEvent: (S, E, Instant) -> S,
    getOutcome: (S, Instant) -> O,
    getNextWake: (S, Instant) -> Option<Instant>,
    getCommandsToReach: (O, O) -> C,
    getTimeoutReached: E -> Option<Instant>)

  /** The loop's persistent state between iterations. */
  datatype LoopState<S> = LoopState(state: S, scheduledWakeup: Option<Instant>, lastUpdate: Instant)

  /** `State::new`: nothing scheduled, last updated at the creation instant. */
  function NewLoopState<S>(initial: S, now: Instant): (l: LoopState<S>)
    ensures l.state == initial
    ensures l.scheduledWakeup.None?
    ensures l.lastUpdate == now
  {
    LoopState(initial, None, now)
  }

  function Max(a: int, b: int): int { if a < b then b else a }

  /** The wakeup slot after a timeout event has been accounted for: an early
      timeout is re-armed no sooner than 10 ms from now, a due one clears
      the slot, and any other event leaves the slot alone. */
  function ScheduleAfterEvent(timeout: Option<Instant>, scheduled: Option<Instant>, now: Instant): (r: Option<Instant>)
    ensures timeout.None? ==> r == scheduled
    ensures timeout.Some? && timeout.value <= now ==> r.None?
    ensures timeout.Some? && timeout.value > now ==>
      r.Some? && r.value >= timeout.value && r.value >= now + MIN_RESCHEDULE
      && (r.value == timeout.value || r.value == now + MIN_RESCHEDULE)
  {
    match timeout
    case Some(when) => if when > now then Some(Max(when, now + MIN_RESCHEDULE)) else None
    case None => scheduled
  }

  /** Reconciles the slot with the wakeup the state desires: the earlier
      of the two wins, and an undesired wakeup is never cancelled. */
  function MergeWake(scheduled: Option<Instant>, desired: Option<Instant>): (r: Option<Instant>)
    ensures r.None? <==> scheduled.None? && desired.None?
    ensures r == scheduled || r == desired
    ensures desired.None? ==> r == scheduled
    ensures scheduled.None? ==> r == desired
    ensures r.Some? && scheduled.Some? ==> r.value <= scheduled.value
    ensures r.Some? && desired.Some? ==> r.value <= desired.value
  {
    match (scheduled, desired)
    case (Some(s), Some(next)) => if s > next then Some(next) else Some(s)
    case (None, Some(next)) => Some(next)
    case (other, _) => other
  }

  /** `handle_event`: one pure iteration of the loop. */
  function HandleEvent<S, E, O, C>(a: Actor<S, E, O, C>, l: LoopState<S>, e: E, now: Instant): (r: (LoopState<S>, C))
    ensures r.0.state == a.applyEvent(l.state, e, now)
    ensures r.0.lastUpdate == now
    ensures r.1 == a.getCommandsToReach(a.getOutcome(l.state, l.lastUpdate), a.getOutcome(r.0.state, now))
    ensures r.0.scheduledWakeup
         == MergeWake(ScheduleAfterEvent(a.getTimeoutReached(e), l.scheduledWakeup, now),
                      a.getNextWake(r.0.state, now))
  {
    var newState := a.applyEvent(l.state, e, now);
    var commands := a.getCommandsToReach(a.getOutcome(l.state, l.lastUpdate), a.getOutcome(newState, now));
    var afterEvent := ScheduleAfterEvent(a.getTimeoutReached(e), l.scheduledWakeup, now);
    var wake := MergeWake(afterEvent, a.getNextWake(newState, now));
    (LoopState(newState, wake, now), commands)
  }

  /** A wakeup the new state asks for is never missed: the slot holds a
      wakeup no later than the desired one. */
  lemma DesiredWakeNeverMissed<S, E, O, C>(a: Actor<S, E, O, C>, l: LoopState<S>, e: E, now: Instant)
    requires a.getNextWake(a.applyEvent(l.state, e, now), now).Some?
    ensures HandleEvent(a, l, e, now).0.scheduledWakeup.Some?
    ensures HandleEvent(a, l, e, now).0.scheduledWakeup.value
         <= a.getNextWake(a.applyEvent(l.state, e, now), now).value
  {
  }

  /** The slot is empty after an iteration exactly when no wakeup is
      desired and the event left nothing scheduled. */
  lemma EmptySlotOnlyWhenNothingPending<S, E, O, C>(a: Actor<S, E, O, C>, l: LoopState<S>, e: E, now: Instant)
    ensures HandleEvent(a, l, e, now).0.scheduledWakeup.None?
        <==> a.getNextWake(a.applyEvent(l.state, e, now), now).None?
             && ScheduleAfterEvent(a.getTimeoutReached(e), l.scheduledWakeup, now).None?
  {
  }

  /** A due timeout whose resulting state wants no wakeup leaves the slot
      empty, as the hiding-timeout scenario expects. */
  lemma DueTimeoutClearsSlot<S, E, O, C>(a: Actor<S, E, O, C>, l: LoopState<S>, e: E, now: Instant)
    requires a.getTimeoutReached(e).Some? && a.getTimeoutReached(e).value <= now
    requires a.getNextWake(a.applyEvent(l.state, e, now), now).None?
    ensures HandleEvent(a, l, e, now).0.scheduledWakeup.None?
  {
  }

  /** An early timeout whose state wants no wakeup is re-armed no sooner
      than its own instant and no sooner than 10 ms from now. */
  lemma EarlyTimeoutRearmed<S, E, O, C>(a: Actor<S, E, O, C>, l: LoopState<S>, e: E, now: Instant)
    requires a.getTimeoutReached(e).Some? && a.getTimeoutReached(e).value > now
    requires a.getNextWake(a.applyEvent(l.state, e, now), now).None?
    ensures HandleEvent(a, l, e, now).0.scheduledWakeup
         == Some(Max(a.getTimeoutReached(e).value, now + MIN_RESCHEDULE))
  {
  }

  /** An event that is not a timeout keeps the previous slot unless the
      new state wants an earlier wakeup. */
  lemma OtherEventKeepsSlot<S, E, O, C>(a: Actor<S, E, O, C>, l: LoopState<S>, e: E, now: Instant)
    requires a.getTimeoutReached(e).None?
    ensures var desired := a.getNextWake(a.applyEvent(l.state, e, now), now);
      var r := HandleEvent(a, l, e, now).0.scheduledWakeup;
      (desired.None? ==> r == l.scheduledWakeup)
      && (l.scheduledWakeup.Some? && desired.Some? && desired.value >= l.scheduledWakeup.value
          ==> r == l.scheduledWakeup)
  {
  }

  // ---------------------------------------------------------------------
  // The hiding-timeout scenario

  /** A toy actor that stands in for the application in the repository's
      scenario: an event either asks to hide after a delay, or reports a
      reached timeout. The state is the instant at which the panel should
      hide (if any), and the outcome is whether the panel is visible. */
  datatype HideEvent = HideAfter(delay: int) | TimeoutReached(when: Instant)

  function HideApply(s: Option<Instant>, e: HideEvent, now: Instant): Option<Instant>
  {
    match e
    case HideAfter(d) => Some(now + d)
    case TimeoutReached(_) => if s.Some? && s.value <= now then None else s
  }

  function HideVisible(s: Option<Instant>, now: Instant): bool
  {
    s.Some?
  }

  function HideNextWake(s: Option<Instant>, now: Instant): Option<Instant>
  {
    s
  }

  function HideCommands(before: bool, after: bool): Option<bool>
  {
    if before == after then None else Some(after)
  }

  function HideTimeout(e: HideEvent): Option<Instant>
  {
    match e
    case TimeoutReached(when) => Some(when)
    case HideAfter(_) => None
  }

  const HideActor: Actor<Option<Instant>, HideEvent, bool, Option<bool>> :=
    Actor(HideApply, HideVisible, HideNextWake, HideCommands, HideTimeout)

  /** Becoming inactive schedules the hiding wakeup at `now + delay`; the
      timeout reached at that instant hides the panel and clears the slot. */
  lemma HidingScenario(start: Instant, delay: nat)
    ensures var l0 := NewLoopState(None, start);
      var (l1, c1) := HandleEvent(HideActor, l0, HideAfter(delay), start);
      var (l2, c2) := HandleEvent(HideActor, l1, TimeoutReached(start + delay), start + delay);
      c1 == Some(true) && l1.scheduledWakeup == Some(start + delay)
      && c2 == Some(false) && l2.scheduledWakeup.None?
  {
  }
}

=== FILE: imservice.dfy ===
/** The input-method side of `src/imservice.rs`: the double-buffered
    protocol state of `zwp_input_method_v2` (requests accumulate in
    `pending` and take effect on `done`), the decoders for the protocol's
    enumerations, and the gate that refuses submissions while the input
    method is inactive. */
module ImService {
  import opened Wrappers
  import opened Util

  // ---------------------------------------------------------------------
  // Content hints: a set of flags

  const HINT_NONE: bv32 := 0x0
  const HINT_COMPLETION: bv32 := 0x1
  const HINT_SPELLCHECK: bv32 := 0x2
  const HINT_AUTO_CAPITALIZATION: bv32 := 0x4
  const HINT_LOWERCASE: bv32 := 0x8
  const HINT_UPPERCASE: bv32 := 0x10
  const HINT_TITLECASE: bv32 := 0x20
  const HINT_HIDDEN_TEXT: bv32 := 0x40
  const HINT_SENSITIVE_DATA: bv32 := 0x80
  const HINT_LATIN: bv32 := 0x100
  const HINT_MULTILINE: bv32 := 0x200

  /** The union of every defined flag. */
  const ALL_HINTS: bv32 := HINT_COMPLETION | HINT_SPELLCHECK | HINT_AUTO_CAPITALIZATION
    | HINT_LOWERCASE | HINT_UPPERCASE | HINT_TITLECASE | HINT_HIDDEN_TEXT
    | HINT_SENSITIVE_DATA | HINT_LATIN | HINT_MULTILINE

  /** `ContentHint`: bits with no flag outside the defined ones. */
  type ContentHint = h: bv32 | h & !ALL_HINTS == 0

  /** `ContentHint::from_bits`: accepts the bits only when every set bit is
      a defined flag. */
  function HintFromBits(bits: bv32): (r: Option<ContentHint>)
    ensures r.Some? <==> bits <= 0x3FF
    ensures r.Some? ==> r.value == bits
  {
    if bits & !ALL_HINTS == 0 then Some(bits) else None
  }

  /** Any combination of defined flags is accepted. */
  lemma HintUnionAccepted(a: bv32, b: bv32)
    requires HintFromBits(a).Some? && HintFromBits(b).Some?
    ensures HintFromBits(a | b) == Some(a | b)
  {
    assert a & !ALL_HINTS == 0 && b & !ALL_HINTS == 0;
    assert (a | b) & !ALL_HINTS == 0;
  }

  // ---------------------------------------------------------------------
  // Enumerations of the protocol

  /** `ContentPurpose`, in declaration order. */
  datatype ContentPurpose =
    | Normal | Alpha | Digits | Number | Phone | Url | Email
    | Name | Password | Pin | Date | Time | Datetime | Terminal

  /** The error of the `try_from` decoders. */
  datatype UnrecognizedValue = UnrecognizedValue

  /** `ContentPurpose as u32`: the declared discriminant. */
  function PurposeDiscriminant(p: ContentPurpose): (n: u32)
    ensures n <= 13
  {
    match p
    case Normal => 0
    case Alpha => 1
    case Digits => 2
    case Number => 3
    case Phone => 4
    case Url => 5
    case Email => 6
    case Name => 7
    case Password => 8
    case Pin => 9
    case Date => 10
    case Time => 11
    case Datetime => 12
    case Terminal => 13
  }

  /** `ContentPurpose::try_from`: the variant whose discriminant is `num`,
      and an error for every value above 13. */
  function ContentPurposeFrom(num: u32): (r: Result<ContentPurpose, UnrecognizedValue>)
    ensures r.Ok? <==> num <= 13
    ensures r.Ok? ==> PurposeDiscriminant(r.value) == num
  {
    match num
    case 0 => Ok(Normal)
    case 1 => Ok(Alpha)
    case 2 => Ok(Digits)
    case 3 => Ok(Number)
    case 4 => Ok(Phone)
    case 5 => Ok(Url)
    case 6 => Ok(Email)
    case 7 => Ok(Name)
    case 8 => Ok(Password)
    case 9 => Ok(Pin)
    case 10 => Ok(Date)
    case 11 => Ok(Time)
    case 12 => Ok(Datetime)
    case 13 => Ok(Terminal)
    case _ => Err(UnrecognizedValue)
  }

  /** Decoding the discriminant of a purpose gives the purpose back, so the
      discriminants are distinct. */
  lemma PurposeRoundTrip(p: ContentPurpose)
    ensures ContentPurposeFrom(PurposeDiscriminant(p)) == Ok(p)
    ensures forall q :: PurposeDiscriminant(q) == PurposeDiscriminant(p) ==> q == p
  {
    forall q | PurposeDiscriminant(q) == PurposeDiscriminant(p) ensures q == p {
      assert ContentPurposeFrom(PurposeDiscriminant(q)) == Ok(q);
    }
  }

  /** Every decoded purpose encodes back to its number. */
  lemma PurposeDecodeEncode(num: u32)
    requires ContentPurposeFrom(num).Ok?
    ensures PurposeDiscriminant(ContentPurposeFrom(num).value) == num
    ensures Alpha == ContentPurposeFrom(1).value
  {
  }

  /** `ChangeCause`, in declaration order. */
  datatype ChangeCause = InputMethod | Other

  function CauseDiscriminant(c: ChangeCause): (n: u32)
    ensures n <= 1
  {
    match c
    case InputMethod => 0
    case Other => 1
  }

  /** `ChangeCause::try_from`: 0 and 1 decode, everything else is an error. */
  function ChangeCauseFrom(num: u32): (r: Result<ChangeCause, UnrecognizedValue>)
    ensures r.Ok? <==> num <= 1
    ensures r.Ok? ==> CauseDiscriminant(r.value) == num
  {
    match num
    case 0 => Ok(InputMethod)
    case 1 => Ok(Other)
    case _ => Err(UnrecognizedValue)
  }

  // ---------------------------------------------------------------------
  // Protocol state

  /** `IMProtocolState`: what the compositor asked for. */
  datatype ProtocolState = ProtocolState(
    surroundingText: string,
    surroundingCursor: u32,
    contentPurpose: ContentPurpose,
    contentHint: ContentHint,
    textChangeCause: ChangeCause,
    active: bool)

  /** `IMProtocolState::default()`. */
  const DEFAULT_STATE: ProtocolState :=
    ProtocolState("", 0, Normal, HINT_NONE, InputMethod, false)

  /** The message for the state manager (`state::InputMethod`). */
  datatype InputMethodEvent =
    | Active(hint: ContentHint, purpose: ContentPurpose)
    | InactiveSince(timestamp: int)

  /** The message choice of `send_event`: the details of the current state
      when it is active, else the instant it was found inactive. */
  function EventFor(st: ProtocolState, timestamp: int): (e: InputMethodEvent)
    ensures e.Active? <==> st.active
    ensures e.Active? ==> e.hint == st.contentHint && e.purpose == st.contentPurpose
    ensures e.InactiveSince? ==> e.timestamp == timestamp
  {
    if st.active then Active(st.contentHint, st.contentPurpose) else InactiveSince(timestamp)
  }

  /** A message tells the truth about a state's activity and details. */
  predicate Reflects(e: InputMethodEvent, st: ProtocolState)
  {
    (e.Active? <==> st.active)
    && (e.Active? ==> e.hint == st.contentHint && e.purpose == st.contentPurpose)
  }

  /** A request the service makes of the input method. */
  datatype ImRequest =
    | CommitStringReq(text: string)
    | DeleteSurroundingTextReq(before: u32, after: u32)
    | CommitReq(serial: u32)

  datatype SubmitError = NotActive

  /** `IMService`. The channel to the state manager is the append-only
      `sentEvents`; the pointer to the C input method is left out. */
  class IMService {
    var pending: ProtocolState
    var current: ProtocolState
    var preeditString: string
    var serial: u32
    var sentEvents: seq<InputMethodEvent>

    /** The state manager was told the current state by the last message,
        or nothing was committed yet. */
    ghost predicate Valid()
      reads this
    {
      if sentEvents == [] then current == DEFAULT_STATE
      else Reflects(sentEvents[|sentEvents| - 1], current)
    }

    /** `IMService::new`: both states default, serial 0. */
    constructor ()
      ensures Valid()
      ensures pending == DEFAULT_STATE && current == DEFAULT_STATE
      ensures preeditString == "" && serial == 0 && sentEvents == []
    {
      pending := DEFAULT_STATE;
      current := DEFAULT_STATE;
      preeditString := "";
      serial := 0;
      sentEvents := [];
    }

    /** `activate`: a fresh, active pending state and no preedit text. */
    method HandleActivate()
      requires Valid()
      modifies this
      ensures Valid()
      ensures pending == DEFAULT_STATE.(active := true)
      ensures preeditString == ""
      ensures current == old(current) && serial == old(serial) && sentEvents == old(sentEvents)
    {
      preeditString := "";
      pending := DEFAULT_STATE.(active := true);
    }

    /** `deactivate`: only the pending activity changes. */
    method HandleDeactivate()
      requires Valid()
      modifies this
      ensures Valid()
      ensures pending == old(pending).(active := false)
      ensures current == old(current) && serial == old(serial)
      ensures preeditString == old(preeditString) && sentEvents == old(sentEvents)
    {
      pending := pending.(active := false);
    }

    /** `surrounding_text`: only the pending text and cursor change; the
        anchor is ignored. */
    method HandleSurroundingText(text: string, cursor: u32, anchor: u32)
      requires Valid()
      modifies this
      ensures Valid()
      ensures pending == old(pending).(surroundingText := text, surroundingCursor := cursor)
      ensures current == old(current) && serial == old(serial)
      ensures preeditString == old(preeditString) && sentEvents == old(sentEvents)
    {
      pending := pending.(surroundingText := text, surroundingCursor := cursor);
    }

    /** `content_type`: undefined hint bits give no hints at all, an
        unknown purpose gives `Normal`; each fallback is reported. */
    method HandleContentType(hint: bv32, purpose: u32) returns (warnings: seq<string>)
      requires Valid()
      modifies this
      ensures Valid()
      ensures pending.contentHint == (if hint <= 0x3FF then hint else HINT_NONE)
      ensures pending.contentPurpose
           == (if purpose <= 13 then ContentPurposeFrom(purpose).value else Normal)
      ensures pending == old(pending).(contentHint := pending.contentHint,
                                       contentPurpose := pending.contentPurpose)
      ensures |warnings| == (if hint <= 0x3FF then 0 else 1) + (if purpose <= 13 then 0 else 1)
      ensures current == old(current) && serial == old(serial)
      ensures preeditString == old(preeditString) && sentEvents == old(sentEvents)
    {
      warnings := [];
      var h := HINT_NONE;
      match HintFromBits(hint) {
        case Some(v) => h := v;
        case None => warnings := warnings + ["Received invalid hint flags"];
      }
      var p := Normal;
      match ContentPurposeFrom(purpose) {
        case Ok(v) => p := v;
        case Err(_) => warnings := warnings + ["Received invalid purpose value"];
      }
      pending := pending.(contentHint := h, contentPurpose := p);
    }

    /** `text_change_cause`: an unknown cause gives `InputMethod`, reported. */
    method HandleTextChangeCause(cause: u32) returns (warnings: seq<string>)
      requires Valid()
      modifies this
      ensures Valid()
      ensures pending == old(pending).(textChangeCause :=
        if cause == 1 then Other else InputMethod)
      ensures |warnings| == (if cause <= 1 then 0 else 1)
      ensures current == old(current) && serial == old(serial)
      ensures preeditString == old(preeditString) && sentEvents == old(sentEvents)
    {
      warnings := [];
      var c := InputMethod;
      match ChangeCauseFrom(cause) {
        case Ok(v) => c := v;
        case Err(_) => warnings := ["Received invalid cause value"];
      }
      pending := pending.(textChangeCause := c);
    }

    /** `done`: the pending state takes effect, the serial advances with
        32-bit wrap-around, and the state manager is told. */
    method HandleDone(timestamp: int)
      requires Valid()
      modifies this
      ensures Valid()
      ensures current == old(pending) && pending == old(pending)
      ensures serial == (old(serial) + 1) % U32_MODULUS
      ensures sentEvents == old(sentEvents) + [EventFor(current, timestamp)]
      ensures preeditString == old(preeditString)
    {
      current := pending;
      serial := (serial + 1) % U32_MODULUS;
      sentEvents := sentEvents + [EventFor(current, timestamp)];
    }

    /** `unavailable`: the current state is forced inactive, without waiting
        for `done`, and the state manager is told. */
    method HandleUnavailable(timestamp: int)
      requires Valid()
      modifies this
      ensures Valid()
      ensures current == old(current).(active := false)
      ensures sentEvents == old(sentEvents) + [InactiveSince(timestamp)]
      ensures pending == old(pending) && serial == old(serial)
      ensures preeditString == old(preeditString)
    {
      current := current.(active := false);
      sentEvents := sentEvents + [EventFor(current, timestamp)];
    }

    /** `commit_string`: the request to send, or `NotActive`. */
    function CommitString(text: string): (r: Result<ImRequest, SubmitError>)
      reads this
      ensures r.Ok? <==> current.active
      ensures r.Ok? ==> r.value == CommitStringReq(text)
    {
      if current.active then Ok(CommitStringReq(text)) else Err(NotActive)
    }

    /** `delete_surrounding_text`: the request to send, or `NotActive`. */
    function DeleteSurroundingText(before: u32, after: u32): (r: Result<ImRequest, SubmitError>)
      reads this
      ensures r.Ok? <==> current.active
      ensures r.Ok? ==> r.value == DeleteSurroundingTextReq(before, after)
    {
      if current.active then Ok(DeleteSurroundingTextReq(before, after)) else Err(NotActive)
    }

    /** `commit`: carries the serial of the last `done`, or `NotActive`. */
    function Commit(): (r: Result<ImRequest, SubmitError>)
      reads this
      ensures r.Ok? <==> current.active
      ensures r.Ok? ==> r.value == CommitReq(serial)
    {
      if current.active then Ok(CommitReq(serial)) else Err(NotActive)
    }

    /** `is_active`: the committed state's activity. */
    function IsActive(): (b: bool)
      reads this
      ensures b <==> CommitString("").Ok?
    {
      current.active
    }
  }

  /** The double buffering: a protocol sequence of activate, content type
      and done makes the service active with the decoded details, and the
      state manager hears exactly that. */
  method ActivationSequence(hint: bv32, purpose: u32, timestamp: int) returns (im: IMService)
    ensures im.Valid() && im.current.active
    ensures im.current.contentHint == (if hint <= 0x3FF then hint else HINT_NONE)
    ensures im.sentEvents == [Active(im.current.contentHint, im.current.contentPurpose)]
    ensures im.serial == 1
    ensures im.CommitString("a") == Ok(CommitStringReq("a")) && im.Commit() == Ok(CommitReq(1))
  {
    im := new IMService();
    assert !im.IsActive() && im.Commit() == Err(NotActive);
    im.HandleActivate();
    assert !im.IsActive();
    var _ := im.HandleContentType(hint, purpose);
    im.HandleDone(timestamp);
  }
}

=== FILE: keyboard_types.dfy ===
/** Value types that the submission arbiter and the layout parser share.
    They come from `src/keyboard.rs` and `src/action.rs`, which are not part
    of this model; only their shape matters here. */
module KeyboardTypes {
  import opened Wrappers

  /** `KeyStateId`: identifies one pressed key. */
  type KeyId = nat

  /** `KeyCode`: a key code and the index of the keymap that defines it. */
  datatype KeyCode = KeyCode(code: nat, keymapIdx: nat)

  /** `PressType`. */
  datatype PressType = Pressed | Released

  /** `action::Modifier`: the modifiers a button can latch. */
  datatype Modifier = Control | Alt | Mod4

  /** `action::Action`: what a button does. */
  datatype Action =
    | SetView(view: string)
    | LockView(lock: string, unlock: string, latches: bool, looksLockedFrom: seq<string>)
    | ShowPreferences
    | Erase
    | Submit(text: Option<string>, keys: seq<string>)
    | ApplyModifier(modifier: Modifier)
}

=== FILE: parsing.dfy ===
/** The action builder of `src/data/parsing.rs`: from the metadata a layout
    file gives a button, decide what the button does (`create_action`),
    which key symbols the layout needs (`extract_symbol_names`), which key
    codes each button gets, and how the button is labelled and sized
    (`create_button`).

    Problems are not printed through a handler but returned as a list of
    reports, in the order the source reports them. Whether a name is a known
    XKB key symbol is decided by the XKB library, so it is a parameter
    `keysymValid`. */
module Parsing {
  import opened Wrappers
  import KT = KeyboardTypes

  // ---------------------------------------------------------------------
  // The layout file's vocabulary

  /** `Action` as written in a layout file. */
  datatype LayoutAction =
    | Locking(lockView: string, unlockView: string, pops: Option<bool>, looksLockedFrom: seq<string>)
    | SetView(view: string)
    | ShowPrefs
    | Erase

  /** `Modifier` as written in a layout file. */
  datatype LayoutModifier = Control | Shift | Lock | Alt | Mod2 | Mod3 | Mod4 | Mod5

  /** `ButtonMeta`: everything a layout file may say about a button. */
  datatype ButtonMeta = ButtonMeta(
    action: Option<LayoutAction>,
    keysym: Option<string>,
    text: Option<string>,
    modifier: Option<LayoutModifier>,
    labelText: Option<string>,
    icon: Option<string>,
    outline: Option<string>)

  /** `ButtonMeta::default()`: nothing said. */
  const DEFAULT_META: ButtonMeta := ButtonMeta(None, None, None, None, None, None, None)

  /** `Outline`: a button's size. */
  datatype Outline = Outline(width: real, height: real)

  /** `logging::Level`. */
  datatype Level = Bug | Warning

  /** One problem reported to the warning handler. */
  datatype Report = Report(level: Level, message: string)

  /** A `Result` of an `expect`: a value, or a panic with its message. */
  datatype Outcome<T> = Done(value: T) | Panic(message: string)

  /** The metadata of a button, or the default when the file has none. */
  function MetaFor(buttonInfo: map<string, ButtonMeta>, name: string): ButtonMeta
  {
    if name in buttonInfo then buttonInfo[name] else DEFAULT_META
  }

  /** Whether `CString::new` accepts the string: it has no NUL character. */
  predicate CStringValid(s: string)
  {
    '\0' !in s
  }

  // ---------------------------------------------------------------------
  // Unicode key symbols

  /** An upper-case hexadecimal digit. */
  predicate IsHexDigit(c: char)
  {
    '0' <= c <= '9' || 'A' <= c <= 'F'
  }

  /** The upper-case hexadecimal digit for `d`. */
  function HexDigit(d: nat): (c: char)
    requires d < 16
    ensures IsHexDigit(c)
  {
    if d < 10 then ('0' as int + d) as char else ('A' as int + d - 10) as char
  }

  /** The upper-case hexadecimal digits of `n`, without leading zeros. */
  function HexDigits(n: nat): (s: string)
    ensures |s| >= 1
    ensures forall i :: 0 <= i < |s| ==> IsHexDigit(s[i])
    ensures s[0] == '0' ==> n == 0 && |s| == 1
    decreases n
  {
    if n < 16 then [HexDigit(n)]
    else HexDigits(n / 16) + [HexDigit(n % 16)]
  }

  function DigitValue(c: char): nat
  {
    if '0' <= c <= '9' then c as int - '0' as int
    else if 'A' <= c <= 'F' then c as int - 'A' as int + 10
    else 0
  }

  /** The number that a string of hexadecimal digits denotes. */
  function HexValue(s: string): nat
  {
    if s == [] then 0 else HexValue(s[..|s| - 1]) * 16 + DigitValue(s[|s| - 1])
  }

  lemma HexValueSnoc(s: string, c: char)
    ensures HexValue(s + [c]) == HexValue(s) * 16 + DigitValue(c)
  {
    assert (s + [c])[..|s + [c]| - 1] == s;
  }

  lemma {:induction false} HexDigitsValue(n: nat)
    ensures HexValue(HexDigits(n)) == n
    decreases n
  {
    if n < 16 {
      HexValueSnoc([], HexDigit(n));
      assert [] + [HexDigit(n)] == HexDigits(n);
    } else {
      HexDigitsValue(n / 16);
      HexValueSnoc(HexDigits(n / 16), HexDigit(n % 16));
    }
  }

  function Zeros(k: nat): (z: string)
    ensures |z| == k && forall i :: 0 <= i < k ==> z[i] == '0'
  {
    seq(k, _ => '0')
  }

  /** Four-digit upper-case hexadecimal formatting pads with leading zeros up to at least four characters. */
  function Pad4(s: string): (r: string)
    ensures |r| == if |s| < 4 then 4 else |s|
    ensures r[|r| - |s|..] == s
    ensures forall i :: 0 <= i < |r| - |s| ==> r[i] == '0'
  {
    if |s| < 4 then Zeros(4 - |s|) + s else s
  }

  lemma {:induction false} LeadingZerosValue(k: nat, s: string)
    ensures HexValue(Zeros(k) + s) == HexValue(s)
    decreases |s|, k
  {
    if s == [] {
      assert Zeros(k) + s == Zeros(k);
      if k > 0 {
        assert Zeros(k)[..k - 1] == Zeros(k - 1);
        LeadingZerosValue(k - 1, []);
        assert Zeros(k - 1) + [] == Zeros(k - 1);
      }
    } else {
      var t := Zeros(k) + s;
      assert t[..|t| - 1] == Zeros(k) + s[..|s| - 1];
      LeadingZerosValue(k, s[..|s| - 1]);
    }
  }

  /** `U` followed by the code point in at least four upper-case hexadecimal digits: the XKB name for a Unicode code point. */
  function UnicodeKeysym(c: char): (k: string)
    ensures |k| >= 5 && k[0] == 'U'
    ensures forall i :: 1 <= i < |k| ==> IsHexDigit(k[i])
    ensures |k| == 5 || k[1] != '0'
    ensures HexValue(k[1..]) == c as int
  {
    var p := Pad4(HexDigits(c as int));
    PaddedDigits(c as int);
    assert ("U" + p)[1..] == p;
    "U" + p
  }

  /** The padded digits are hexadecimal digits and still denote `n`. */
  lemma PaddedDigits(n: nat)
    ensures var p := Pad4(HexDigits(n));
      && |p| >= 4 && (|p| == 4 || p[0] != '0')
      && (forall i :: 0 <= i < |p| ==> IsHexDigit(p[i])) && HexValue(p) == n
  {
    var digits := HexDigits(n);
    var p := Pad4(digits);
    HexDigitsValue(n);
    LeadingZerosValue(|p| - |digits|, digits);
    assert p == Zeros(|p| - |digits|) + digits;
  }

  /** The key symbol for one code point of a button's text: the character
      itself when XKB knows it by that name, else its Unicode name. */
  function CodepointKeysym(c: char, keysymValid: string -> bool): (k: string)
    ensures keysymValid([c]) ==> k == [c]
    ensures !keysymValid([c]) ==> |k| >= 5 && k[0] == 'U' && HexValue(k[1..]) == c as int
    ensures !keysymValid([c]) ==> k == UnicodeKeysym(c)
  {
    if keysymValid([c]) then [c] else UnicodeKeysym(c)
  }

  /** One key symbol per code point of the text, in order. */
  function TextKeysyms(text: string, keysymValid: string -> bool): (keys: seq<string>)
    ensures |keys| == |text|
    ensures forall i :: 0 <= i < |text| ==> keys[i] == CodepointKeysym(text[i], keysymValid)
  {
    seq(|text|, i requires 0 <= i < |text| => CodepointKeysym(text[i], keysymValid))
  }

  /** The repository's example: "." is not an XKB key symbol name, so it
      becomes `U002E`. */
  lemma PeriodKeysym()
    ensures UnicodeKeysym('.') == "U002E"
  {
    assert HexDigits('.' as int) == "2E";
  }

  // ---------------------------------------------------------------------
  // create_action

  /** How a button submits, before views and key symbols are checked. */
  datatype Submission =
    | ByAction(action: LayoutAction)
    | ByText(text: string)
    | ByKeysym(keysym: string)
    | ByModifier(modifier: LayoutModifier)

  /** How many of action, keysym, text and modifier the metadata gives. */
  function SubmitFieldCount(meta: ButtonMeta): (n: nat)
    ensures n <= 4
  {
    (if meta.action.Some? then 1 else 0) + (if meta.keysym.Some? then 1 else 0)
    + (if meta.text.Some? then 1 else 0) + (if meta.modifier.Some? then 1 else 0)
  }

  /** The first `match` of `create_action`: exactly one of the four fields
      decides; none means the button's name is its text; more than one is
      reported and gives empty text. */
  function ChooseSubmission(meta: ButtonMeta, name: string): (r: (Submission, seq<Report>))
    ensures SubmitFieldCount(meta) == 0 ==> r == (ByText(name), [])
    ensures SubmitFieldCount(meta) == 1 ==> r.1 == []
    ensures SubmitFieldCount(meta) == 1 && meta.action.Some? ==> r.0 == ByAction(meta.action.value)
    ensures SubmitFieldCount(meta) == 1 && meta.keysym.Some? ==> r.0 == ByKeysym(meta.keysym.value)
    ensures SubmitFieldCount(meta) == 1 && meta.text.Some? ==> r.0 == ByText(meta.text.value)
    ensures SubmitFieldCount(meta) == 1 && meta.modifier.Some? ==> r.0 == ByModifier(meta.modifier.value)
    ensures SubmitFieldCount(meta) >= 2 ==> r.0 == ByText("") && |r.1| == 1 && r.1[0].level == Warning
  {
    match (meta.action, meta.keysym, meta.text, meta.modifier)
    case (Some(action), None, None, None) => (ByAction(action), [])
    case (None, Some(keysym), None, None) => (ByKeysym(keysym), [])
    case (None, None, Some(text), None) => (ByText(text), [])
    case (None, None, None, Some(modifier)) => (ByModifier(modifier), [])
    case (None, None, None, None) => (ByText(name), [])
    case _ =>
      (ByText(""), [Report(Warning, "Button " + name + " has more than one of (action, keysym, text, modifier)")])
  }

  /** `filter_view_name`: a view that exists is kept; any other is
      reported and replaced by "base". */
  function FilterViewName(buttonName: string, viewName: string, viewNames: seq<string>): (r: (string, seq<Report>))
    ensures viewName in viewNames ==> r == (viewName, [])
    ensures viewName !in viewNames ==> r.0 == "base" && |r.1| == 1 && r.1[0].level == Warning
  {
    if viewName in viewNames then (viewName, [])
    else ("base", [Report(Warning, "Button " + buttonName + " switches to missing view " + viewName)])
  }

  /** The debug-format name of a modifier. */
  function ModifierName(m: LayoutModifier): string
  {
    match m
    case Control => "Control"
    case Shift => "Shift"
    case Lock => "Lock"
    case Alt => "Alt"
    case Mod2 => "Mod2"
    case Mod3 => "Mod3"
    case Mod4 => "Mod4"
    case Mod5 => "Mod5"
  }

  /** The modifiers a button may latch: Control, Alt and Mod4. Any other is
      reported as a bug and gives a button that submits nothing. */
  function ModifierAction(m: LayoutModifier): (r: (KT.Action, seq<Report>))
    ensures m.Control? ==> r == (KT.ApplyModifier(KT.Control), [])
    ensures m.Alt? ==> r == (KT.ApplyModifier(KT.Alt), [])
    ensures m.Mod4? ==> r == (KT.ApplyModifier(KT.Mod4), [])
    ensures !(m.Control? || m.Alt? || m.Mod4?) ==>
      r.0 == KT.Submit(None, []) && |r.1| == 1 && r.1[0].level == Bug
  {
    match m
    case Control => (KT.ApplyModifier(KT.Control), [])
    case Alt => (KT.ApplyModifier(KT.Alt), [])
    case Mod4 => (KT.ApplyModifier(KT.Mod4), [])
    case _ => (KT.Submit(None, []), [Report(Bug, "Modifier " + ModifierName(m) + " unsupported")])
  }

  /** A text button: the text to commit, unless it cannot be a C string
      (which is reported), and one key symbol per code point. */
  function TextAction(text: string, keysymValid: string -> bool): (r: (KT.Action, seq<Report>))
    ensures r.0 == KT.Submit(if CStringValid(text) then Some(text) else None, TextKeysyms(text, keysymValid))
    ensures |r.1| == if CStringValid(text) then 0 else 1
  {
    var keys := TextKeysyms(text, keysymValid);
    if CStringValid(text) then (KT.Submit(Some(text), keys), [])
    else (KT.Submit(None, keys), [Report(Warning, "Text " + text + " contains problems")])
  }

  /** A keysym button: the key symbol if XKB knows it, else a reported
      placeholder. */
  function KeysymAction(keysym: string, keysymValid: string -> bool): (r: (KT.Action, seq<Report>))
    ensures r.0 == KT.Submit(None, [if keysymValid(keysym) then keysym else "space"])
    ensures |r.1| == if keysymValid(keysym) then 0 else 1
  {
    if keysymValid(keysym) then (KT.Submit(None, [keysym]), [])
    else (KT.Submit(None, ["space"]), [Report(Warning, "Keysym name invalid: " + keysym)])
  }

  /** `create_action`: what a button does, and the problems reported on the
      way. */
  function CreateAction(buttonInfo: map<string, ButtonMeta>, name: string, viewNames: seq<string>,
                        keysymValid: string -> bool): (r: (KT.Action, seq<Report>))
    ensures "base" in viewNames && r.0.SetView? ==> r.0.view in viewNames
    ensures "base" in viewNames && r.0.LockView? ==> r.0.lock in viewNames && r.0.unlock in viewNames
    ensures SubmitFieldCount(MetaFor(buttonInfo, name)) >= 2 ==> r == (KT.Submit(Some(""), []), r.1) && |r.1| == 1
    ensures SubmitFieldCount(MetaFor(buttonInfo, name)) == 0 ==> r == TextAction(name, keysymValid)
  {
    var meta := MetaFor(buttonInfo, name);
    var (submission, choiceReports) := ChooseSubmission(meta, name);
    var (action, reports) :=
      match submission
      case ByAction(SetView(view)) =>
        var (v, w) := FilterViewName(name, view, viewNames);
        (KT.SetView(v), w)
      case ByAction(Locking(lockView, unlockView, pops, looksLockedFrom)) =>
        var (lock, w1) := FilterViewName(name, lockView, viewNames);
        var (unlock, w2) := FilterViewName(name, unlockView, viewNames);
        (KT.LockView(lock, unlock, if pops.Some? then pops.value else true, looksLockedFrom), w1 + w2)
      case ByAction(ShowPrefs) => (KT.ShowPreferences, [])
      case ByAction(Erase) => (KT.Erase, [])
      case ByKeysym(keysym) => KeysymAction(keysym, keysymValid)
      case ByText(text) => TextAction(text, keysymValid)
      case ByModifier(modifier) => ModifierAction(modifier);
    var all := choiceReports + reports;
    assert choiceReports == [] ==> all == reports;
    (action, all)
  }

  /** Which kind of action each single field gives, with the number of
      problems reported. */
  lemma CreateActionSingleField(buttonInfo: map<string, ButtonMeta>, name: string, viewNames: seq<string>,
                                keysymValid: string -> bool)
    requires SubmitFieldCount(MetaFor(buttonInfo, name)) == 1
    ensures var meta := MetaFor(buttonInfo, name);
      var r := CreateAction(buttonInfo, name, viewNames, keysymValid);
      && (meta.text.Some? ==> r == TextAction(meta.text.value, keysymValid))
      && (meta.keysym.Some? ==> r == KeysymAction(meta.keysym.value, keysymValid))
      && (meta.modifier.Some? ==> r == ModifierAction(meta.modifier.value))
      && (meta.action.Some? && meta.action.value.SetView? ==>
            r.0 == KT.SetView(FilterViewName(name, meta.action.value.view, viewNames).0)
            && |r.1| == (if meta.action.value.view in viewNames then 0 else 1))
      && (meta.action.Some? && meta.action.value.Locking? ==>
            var a := meta.action.value;
            r.0.LockView?
            && r.0.lock == FilterViewName(name, a.lockView, viewNames).0
            && r.0.unlock == FilterViewName(name, a.unlockView, viewNames).0
            && r.0.latches == (a.pops != Some(false))
            && r.0.looksLockedFrom == a.looksLockedFrom
            && |r.1| == (if a.lockView in viewNames then 0 else 1) + (if a.unlockView in viewNames then 0 else 1))
      && (meta.action == Some(ShowPrefs) ==> r == (KT.ShowPreferences, []))
      && (meta.action == Some(Erase) ==> r == (KT.Erase, []))
  {
    var meta := MetaFor(buttonInfo, name);
    assert ChooseSubmission(meta, name).1 == [];
    forall reports: seq<Report> ensures [] + reports == reports {}
  }

  /** The repository's example: a button named "." with only a label. */
  lemma PeriodButton(keysymValid: string -> bool)
    requires !keysymValid(".")
    ensures var info := map["." := DEFAULT_META.(labelText := Some("test"))];
      CreateAction(info, ".", [], keysymValid) == (KT.Submit(Some("."), ["U002E"]), [])
  {
    var info := map["." := DEFAULT_META.(labelText := Some("test"))];
    assert SubmitFieldCount(MetaFor(info, ".")) == 0;
    PeriodText(keysymValid);
  }

  /** The text "." submits itself, with the key symbol `U002E`. */
  lemma PeriodText(keysymValid: string -> bool)
    requires !keysymValid(".")
    ensures TextAction(".", keysymValid) == (KT.Submit(Some("."), ["U002E"]), [])
  {
    assert CStringValid(".");
    PeriodKeysym();
    var keys := TextKeysyms(".", keysymValid);
    assert keys[0] == CodepointKeysym('.', keysymValid) == "U002E";
    Singleton(keys, "U002E");
    var r := TextAction(".", keysymValid);
    assert r.0 == KT.Submit(Some("."), keys) && |r.1| == 0;
  }

  lemma Singleton<T>(s: seq<T>, x: T)
    requires |s| == 1 && s[0] == x
    ensures s == [x]
  {
  }

  // ---------------------------------------------------------------------
  // Symbols and key codes

  /** `extract_symbol_names`: the key symbols of every submitting button,
      in order, and "BackSpace" for every erasing one. */
  function ExtractSymbolNames(actions: seq<(string, KT.Action)>): (r: seq<string>)
    ensures forall s :: s in r ==> exists i :: 0 <= i < |actions| && s in SymbolNamesOf(actions[i].1)
  {
    if actions == [] then []
    else SymbolNamesOf(actions[0].1) + ExtractSymbolNames(actions[1..])
  }

  function SymbolNamesOf(a: KT.Action): seq<string>
  {
    match a
    case Submit(_, keys) => keys
    case Erase => ["BackSpace"]
    case _ => []
  }

  lemma {:induction false} ExtractSymbolNamesConcat(a: seq<(string, KT.Action)>, b: seq<(string, KT.Action)>)
    ensures ExtractSymbolNames(a + b) == ExtractSymbolNames(a) + ExtractSymbolNames(b)
  {
    if a == [] {
      assert a + b == b;
    } else {
      assert (a + b)[1..] == a[1..] + b;
      ExtractSymbolNamesConcat(a[1..], b);
    }
  }

  /** Every symbol a button needs is among the extracted names. */
  lemma {:induction false} ExtractSymbolNamesCovers(actions: seq<(string, KT.Action)>, i: nat)
    requires i < |actions|
    ensures forall s :: s in SymbolNamesOf(actions[i].1) ==> s in ExtractSymbolNames(actions)
  {
    if i > 0 {
      ExtractSymbolNamesCovers(actions[1..], i - 1);
    }
  }

  /** The repository's examples. */
  lemma ExtractSymbolNamesExamples()
    ensures ExtractSymbolNames([("ac", KT.Submit(None, ["a", "c"]))]) == ["a", "c"]
    ensures ExtractSymbolNames([("Erase", KT.Erase)]) == ["BackSpace"]
  {
    assert ExtractSymbolNames([("ac", KT.Submit(None, ["a", "c"]))])
        == ["a", "c"] + ExtractSymbolNames([]);
    assert ExtractSymbolNames([("Erase", KT.Erase)]) == ["BackSpace"] + ExtractSymbolNames([]);
  }

  /** The key codes `build` gives a button: one per key symbol of a
      submitting button, the code of "BackSpace" for an erasing one, none
      otherwise. A symbol missing from the map is a panic in the source. */
  function ButtonKeycodes(action: KT.Action, symbolMap: map<string, KT.KeyCode>): (kcs: seq<KT.KeyCode>)
    requires forall s :: s in SymbolNamesOf(action) ==> s in symbolMap
    ensures |kcs| == |SymbolNamesOf(action)|
    ensures forall i :: 0 <= i < |kcs| ==> kcs[i] == symbolMap[SymbolNamesOf(action)[i]]
    ensures action.Erase? ==> kcs == [symbolMap["BackSpace"]]
  {
    var names := SymbolNamesOf(action);
    seq(|names|, i requires 0 <= i < |names| => symbolMap[names[i]])
  }

  /** A symbol map that covers the extracted names lets every button get
      its key codes, which is what `build` relies on. */
  lemma SymbolMapSuffices(actions: seq<(string, KT.Action)>, symbolMap: map<string, KT.KeyCode>, i: nat)
    requires forall s :: s in ExtractSymbolNames(actions) ==> s in symbolMap
    requires i < |actions|
    ensures forall s :: s in SymbolNamesOf(actions[i].1) ==> s in symbolMap
    ensures actions[i].1.Erase? ==> |ButtonKeycodes(actions[i].1, symbolMap)| == 1
  {
    ExtractSymbolNamesCovers(actions, i);
  }

  // ---------------------------------------------------------------------
  // create_button

  /** `layout::Label`. */
  datatype Label = Text(text: string) | IconName(name: string)

  /** `keyboard::Key`: what the button does and its key codes. */
  datatype Key = Key(keycodes: seq<KT.KeyCode>, action: KT.Action)

  /** `layout::Button`. */
  datatype Button = Button(name: string, outlineName: string, size: Outline, shownLabel: Label,
                           action: KT.Action, keycodes: seq<KT.KeyCode>)

  /** The label: the explicit label, else the icon, else the text (empty,
      and reported, when it cannot be a C string), else the name. */
  function ChooseLabel(meta: ButtonMeta, name: string): (r: Outcome<(Label, seq<Report>)>)
    ensures meta.labelText.Some? ==>
      if CStringValid(meta.labelText.value) then r == Done((Text(meta.labelText.value), [])) else r == Panic("Bad label")
    ensures meta.labelText.None? && meta.icon.Some? ==>
      if CStringValid(meta.icon.value) then r == Done((IconName(meta.icon.value), [])) else r == Panic("Bad icon")
    ensures meta.labelText.None? && meta.icon.None? && meta.text.Some? ==>
      r.Done? && if CStringValid(meta.text.value) then r.value == (Text(meta.text.value), [])
                 else r.value.0 == Text("") && |r.value.1| == 1
    ensures meta.labelText.None? && meta.icon.None? && meta.text.None? ==> r == Done((Text(name), []))
  {
    match (meta.labelText, meta.icon, meta.text)
    case (Some(given), _, _) =>
      if CStringValid(given) then Done((Text(given), [])) else Panic("Bad label")
    case (None, Some(icon), _) =>
      if CStringValid(icon) then Done((IconName(icon), [])) else Panic("Bad icon")
    case (None, None, Some(text)) =>
      if CStringValid(text) then Done((Text(text), []))
      else Done((Text(""), [Report(Warning, "Text " + text + " is invalid")]))
    case (None, None, None) => Done((Text(name), []))
  }

  /** The outline name: a given name that is defined, else "default" (a
      given but undefined name is reported). */
  function ChooseOutlineName(meta: ButtonMeta, outlines: map<string, Outline>, name: string): (r: (string, seq<Report>))
    ensures meta.outline.Some? && meta.outline.value in outlines ==> r == (meta.outline.value, [])
    ensures meta.outline.Some? && meta.outline.value !in outlines ==> r.0 == "default" && |r.1| == 1
    ensures meta.outline.None? ==> r == ("default", [])
  {
    match meta.outline
    case Some(outline) =>
      if outline in outlines then (outline, [])
      else ("default", [Report(Warning, "Outline named " + outline + " does not exist! Using default for button " + name)])
    case None => ("default", [])
  }

  /** The size: the chosen outline, else a reported 1x1. */
  function ChooseSize(outlines: map<string, Outline>, outlineName: string): (r: (Outline, seq<Report>))
    ensures outlineName in outlines ==> r == (outlines[outlineName], [])
    ensures outlineName !in outlines ==> r.0 == Outline(1.0, 1.0) && |r.1| == 1
  {
    if outlineName in outlines then (outlines[outlineName], [])
    else (Outline(1.0, 1.0), [Report(Warning, "No default outline defined! Using 1x1!")])
  }

  /** `create_button`: the button, and the problems reported, or the panic
      of the first `expect` that fails. */
  function CreateButton(buttonInfo: map<string, ButtonMeta>, outlines: map<string, Outline>,
                        name: string, data: Key): (r: Outcome<(Button, seq<Report>)>)
    ensures !CStringValid(name) ==> r == Panic("Bad name")
    ensures r.Done? ==>
      var meta := MetaFor(buttonInfo, name);
      var b := r.value.0;
      && ChooseLabel(meta, name).Done?
      && b.shownLabel == ChooseLabel(meta, name).value.0
      && b.outlineName == ChooseOutlineName(meta, outlines, name).0
      && b.size == ChooseSize(outlines, b.outlineName).0
      && b.name == name && b.action == data.action && b.keycodes == data.keycodes
      && r.value.1 == ChooseLabel(meta, name).value.1 + ChooseOutlineName(meta, outlines, name).1
                      + ChooseSize(outlines, b.outlineName).1
    ensures r.Panic? <==>
      !CStringValid(name) || ChooseLabel(MetaFor(buttonInfo, name), name).Panic?
      || !CStringValid(ChooseOutlineName(MetaFor(buttonInfo, name), outlines, name).0)
  {
    if !CStringValid(name) then Panic("Bad name")
    else
      var meta := MetaFor(buttonInfo, name);
      match ChooseLabel(meta, name)
      case Panic(message) => Panic(message)
      case Done((shown, labelReports)) =>
        var (outlineName, outlineReports) := ChooseOutlineName(meta, outlines, name);
        var (size, sizeReports) := ChooseSize(outlines, outlineName);
        if !CStringValid(outlineName) then Panic("Bad outline")
        else Done((Button(name, outlineName, size, shown, data.action, data.keycodes),
                   labelReports + outlineReports + sizeReports))
  }

  /** With a "default" outline defined, every button gets a defined
      outline and the size of that outline. */
  lemma DefinedOutlineUsed(buttonInfo: map<string, ButtonMeta>, outlines: map<string, Outline>,
                           name: string, data: Key)
    requires "default" in outlines
    requires CreateButton(buttonInfo, outlines, name, data).Done?
    ensures var b := CreateButton(buttonInfo, outlines, name, data).value.0;
      b.outlineName in outlines && b.size == outlines[b.outlineName]
  {
  }
}

=== FILE: submission.dfy ===
/** The submission arbiter of `src/submission.rs`. It decides, for each
    key press and release, whether text goes to the input method or raw
    key events go to the virtual keyboard, and it keeps the modifier mask
    and the selected keymap in step with what is pressed.

    The two outward sinks (the virtual keyboard and the input method) are
    modelled as one append-only trace `sent` of requests. Every state-changing
    method of `Submission` is proved to take the object from `Model()` to the
    value that a pure function of the same name (suffix `F`) computes; the
    properties the arbiter promises are lemmas about those functions. */
module Submission {
  import opened Wrappers
  import opened Util
  import opened KeyboardTypes
  import ImService

  /** The contents of a keymap file handed to the compositor. */
  type Keymap = string

  /** `keyboard::Modifiers`: the raw modifier bits of the virtual keyboard. */
  datatype RawModifier = CONTROL | MOD1 | MOD4

  /** A request to the virtual keyboard. */
  datatype VkRequest =
    | Switch(code: nat, press: PressType, time: u32)
    | SetModifiers(mask: set<RawModifier>)
    | UpdateKeymap(keymap: Keymap)

  /** A request to either sink, in the order the arbiter makes them. */
  datatype Request = VirtualKey(vk: VkRequest) | InputMethod(im: ImService.ImRequest)

  /** `SubmittedAction`: how a pressed key was submitted. */
  datatype SubmittedAction = VirtualKeyboard(keycodes: seq<KeyCode>) | IMService

  /** `SubmitData`: what a pressed key wants to submit. */
  datatype SubmitData = Text(text: string) | Erase | Keycodes

  /** What the arbiter sees of the input method: whether its committed
      state is active, and the serial a commit would carry. */
  datatype ImLink = ImLink(active: bool, serial: u32)

  /** The fields of `Submission` as one value. */
  datatype SubState = SubState(
    mods: seq<(KeyId, Modifier)>,
    pressed: seq<(KeyId, SubmittedAction)>,
    keymaps: seq<Keymap>,
    keymapIdx: Option<nat>,
    sent: seq<Request>)

  // ---------------------------------------------------------------------
  // Predicates on the state

  /** Every key code of a raw-pressed key names one of the keymaps, so
      reselecting its keymap on release cannot index out of bounds. */
  predicate WellFormed(st: SubState)
  {
    forall e :: e in st.pressed && e.1.VirtualKeyboard? ==>
      forall kc :: kc in e.1.keycodes ==> kc.keymapIdx < |st.keymaps|
  }

  /** No two entries carry the same key id. */
  predicate DistinctIds<T>(p: seq<(KeyId, T)>)
  {
    forall i, j :: 0 <= i < |p| && 0 <= j < |p| && p[i].0 == p[j].0 ==> i == j
  }

  /** The entry belongs to key `id`. */
  function HasId<T>(id: KeyId): ((KeyId, T)) -> bool
  {
    (e: (KeyId, T)) => e.0 == id
  }

  /** A request that only ever takes something back: a key release, the
      empty modifier mask, or a keymap. */
  predicate ReleaseOnly(r: Request)
  {
    r.VirtualKey? &&
    match r.vk
    case Switch(_, press, _) => press == Released
    case SetModifiers(mask) => mask == {}
    case UpdateKeymap(_) => true
  }

  /** A key press sent to the virtual keyboard. */
  predicate IsPress(r: Request)
  {
    r.VirtualKey? && r.vk.Switch? && r.vk.press == Pressed
  }

  /** How releasing and keymap selection may change the state: keymaps are
      kept, pressed entries are only removed, modifiers are kept or all
      dropped, and the trace only grows by requests that take something back
      (with no modifier request at all when no modifier was active). */
  ghost predicate Evolves(st: SubState, r: SubState)
  {
    && r.keymaps == st.keymaps
    && |r.pressed| <= |st.pressed|
    && (forall e :: e in r.pressed ==> e in st.pressed)
    && (DistinctIds(st.pressed) ==> DistinctIds(r.pressed))
    && (r.mods == st.mods || r.mods == [])
    && st.sent <= r.sent
    && (forall k :: |st.sent| <= k < |r.sent| ==>
          ReleaseOnly(r.sent[k]) && (st.mods == [] ==> r.sent[k] != VirtualKey(SetModifiers({}))))
  }

  lemma EvolvesTrans(a: SubState, b: SubState, c: SubState)
    requires Evolves(a, b) && Evolves(b, c)
    ensures Evolves(a, c)
  {
    forall k | |a.sent| <= k < |c.sent|
      ensures ReleaseOnly(c.sent[k]) && (a.mods == [] ==> c.sent[k] != VirtualKey(SetModifiers({})))
    {
      if k < |b.sent| {
        assert c.sent[k] == b.sent[k];
      }
    }
  }

  lemma EvolvesAppend(a: SubState, b: SubState, r: Request)
    requires Evolves(a, b) && ReleaseOnly(r) && !r.vk.SetModifiers?
    ensures Evolves(a, b.(sent := b.sent + [r]))
  {
  }

  lemma RemoveAtKeeps<T>(s: seq<(KeyId, T)>, i: nat)
    requires i < |s|
    ensures forall e :: e in RemoveAt(s, i) ==> e in s
    ensures DistinctIds(s) ==> DistinctIds(RemoveAt(s, i))
    ensures DistinctIds(s) ==> forall e :: e in RemoveAt(s, i) ==> e.0 != s[i].0
    ensures forall e :: e in s && e != s[i] ==> e in RemoveAt(s, i)
  {
    var r := RemoveAt(s, i);
    assert forall j :: 0 <= j < |r| ==> r[j] == s[if j < i then j else j + 1];
    forall e | e in s && e != s[i] ensures e in r {
      var j :| 0 <= j < |s| && s[j] == e;
      if j < i {
        assert r[j] == e;
      } else {
        assert r[j - 1] == e;
      }
    }
  }

  /** When no entry matches, no entry carries the key id. */
  lemma NoEntryOf<T>(p: seq<(KeyId, T)>, id: KeyId)
    ensures Position(p, HasId(id)).None? ==> forall e :: e in p ==> e.0 != id
  {
    if Position(p, HasId(id)).None? {
      forall e | e in p ensures e.0 != id {
        var j :| 0 <= j < |p| && p[j] == e;
        assert !HasId(id)(p[j]);
      }
    }
  }

  // ---------------------------------------------------------------------
  // Which pressed keys remain, and which are released

  /** The entries of keys submitted through the input method, in order. */
  function ImEntries(p: seq<(KeyId, SubmittedAction)>): (q: seq<(KeyId, SubmittedAction)>)
    ensures |q| <= |p|
  {
    if p == [] then []
    else (if p[0].1.IMService? then [p[0]] else []) + ImEntries(p[1..])
  }

  /** The filter keeps exactly the input-method entries. */
  lemma {:induction false} ImEntriesMembers(p: seq<(KeyId, SubmittedAction)>)
    ensures forall e :: e in ImEntries(p) <==> e in p && e.1.IMService?
  {
    if p != [] {
      ImEntriesMembers(p[1..]);
      assert forall e :: e in p <==> e == p[0] || e in p[1..];
    }
  }

  /** Filtering twice is filtering once. */
  lemma ImEntriesIdempotent(p: seq<(KeyId, SubmittedAction)>)
    ensures ImEntries(ImEntries(p)) == ImEntries(p)
  {
    ImEntriesMembers(p);
    ImEntriesOfImOnly(ImEntries(p));
  }

  lemma {:induction false} ImEntriesConcat(a: seq<(KeyId, SubmittedAction)>, b: seq<(KeyId, SubmittedAction)>)
    ensures ImEntries(a + b) == ImEntries(a) + ImEntries(b)
  {
    if a == [] {
      assert a + b == b;
    } else {
      var head := if a[0].1.IMService? then [a[0]] else [];
      assert (a + b)[0] == a[0] && (a + b)[1..] == a[1..] + b;
      ImEntriesConcat(a[1..], b);
      assert head + (ImEntries(a[1..]) + ImEntries(b)) == (head + ImEntries(a[1..])) + ImEntries(b);
    }
  }

  /** Forgetting a raw-pressed entry keeps the input-method entries. */
  lemma ImEntriesRemoveRaw(p: seq<(KeyId, SubmittedAction)>, i: nat)
    requires i < |p| && p[i].1.VirtualKeyboard?
    ensures ImEntries(RemoveAt(p, i)) == ImEntries(p)
  {
    var front, single, back := p[..i], [p[i]], p[i + 1..];
    assert ImEntries(p) == ImEntries(front) + ImEntries(back) by {
      assert single[1..] == [];
      assert ImEntries(single) == [] + ImEntries(single[1..]);
      assert p == front + (single + back);
      ImEntriesConcat(front, single + back);
      ImEntriesConcat(single, back);
    }
    assert ImEntries(RemoveAt(p, i)) == ImEntries(front) + ImEntries(back) by {
      assert RemoveAt(p, i) == front + back;
      ImEntriesConcat(front, back);
    }
  }

  /** A list of input-method entries is its own filter. */
  lemma {:induction false} ImEntriesOfImOnly(p: seq<(KeyId, SubmittedAction)>)
    requires forall e :: e in p ==> e.1.IMService?
    ensures ImEntries(p) == p
  {
    if p != [] {
      assert p[0] in p;
      assert forall e :: e in p[1..] ==> e in p;
      ImEntriesOfImOnly(p[1..]);
      assert p == [p[0]] + p[1..];
    }
  }

  /** An input-method entry never shares its id with a raw-pressed one
      when ids are distinct. */
  lemma ImIdsNotRaw(p: seq<(KeyId, SubmittedAction)>)
    ensures DistinctIds(p) ==> forall e :: e in p && e.1.IMService? ==> e.0 !in VirtualPressedIds(p)
  {
    if DistinctIds(p) {
      forall e, e' | e in p && e' in p && e.1.IMService? && e'.1.VirtualKeyboard?
        ensures e.0 != e'.0
      {
        var i :| 0 <= i < |p| && p[i] == e;
        var j :| 0 <= j < |p| && p[j] == e';
      }
    }
  }

  /** Once every raw-pressed key of `p` is gone from `q` and the input-method
      entries are kept, `q` is exactly those entries. */
  lemma OnlyImLeft(p: seq<(KeyId, SubmittedAction)>, q: seq<(KeyId, SubmittedAction)>)
    requires forall e :: e in q ==> e in p
    ensures (forall e :: e in q ==> e.0 !in VirtualPressedIds(p)) && ImEntries(q) == ImEntries(p)
            ==> q == ImEntries(p)
  {
    if (forall e :: e in q ==> e.0 !in VirtualPressedIds(p)) && ImEntries(q) == ImEntries(p) {
      ImEntriesOfImOnly(q);
    }
  }

  /** A raw press of exactly one key code, the kind whose release reaches
      the virtual keyboard. */
  predicate OneCodeRaw(e: (KeyId, SubmittedAction))
  {
    e.1.VirtualKeyboard? && |e.1.keycodes| == 1
  }

  /** Every one-code raw press of `p` is a key code of keymap `idx`, so
      releasing it selects no other keymap. */
  predicate OnKeymap(p: seq<(KeyId, SubmittedAction)>, idx: nat)
  {
    forall e :: e in p && OneCodeRaw(e) ==> e.1.keycodes[0].keymapIdx == idx
  }

  /** The release request for a one-code raw press. */
  function ReleaseOf(e: (KeyId, SubmittedAction), time: u32): Request
    requires OneCodeRaw(e)
  {
    VirtualKey(Switch(e.1.keycodes[0].code, Released, time))
  }

  /** Every one-code raw press of `p` is still pressed in `q` or has its
      release among the requests `out`. */
  predicate KeptOrReleased(p: seq<(KeyId, SubmittedAction)>, q: seq<(KeyId, SubmittedAction)>,
                           out: seq<Request>, time: u32)
  {
    forall e :: e in p && OneCodeRaw(e) ==> e in q || ReleaseOf(e, time) in out
  }

  lemma KeptOrReleasedTrans(p: seq<(KeyId, SubmittedAction)>, q: seq<(KeyId, SubmittedAction)>,
                            s: seq<(KeyId, SubmittedAction)>, o1: seq<Request>, o2: seq<Request>,
                            out: seq<Request>, time: u32)
    requires KeptOrReleased(p, q, o1, time) && KeptOrReleased(q, s, o2, time)
    requires forall x :: x in o1 ==> x in out
    requires forall x :: x in o2 ==> x in out
    ensures KeptOrReleased(p, s, out, time)
  {
  }

  /** Two steps of a trace, each keeping or releasing the keys before it. */
  lemma KeptOrReleasedChain(p: seq<(KeyId, SubmittedAction)>, q: seq<(KeyId, SubmittedAction)>,
                            s: seq<(KeyId, SubmittedAction)>, a: seq<Request>, b: seq<Request>,
                            c: seq<Request>, time: u32)
    requires a <= b <= c
    requires KeptOrReleased(p, q, b[|a|..], time) && KeptOrReleased(q, s, c[|b|..], time)
    ensures KeptOrReleased(p, s, c[|a|..], time)
  {
    assert c[|a|..] == b[|a|..] + c[|b|..];
    KeptOrReleasedTrans(p, q, s, b[|a|..], c[|b|..], c[|a|..], time);
  }

  /** Appending requests to a trace loses no release. */
  lemma KeptOrReleasedAppend(p: seq<(KeyId, SubmittedAction)>, q: seq<(KeyId, SubmittedAction)>,
                             a: seq<Request>, b: seq<Request>, x: seq<Request>, time: u32)
    requires a <= b && KeptOrReleased(p, q, b[|a|..], time)
    ensures KeptOrReleased(p, q, (b + x)[|a|..], time)
  {
    assert (b + x)[|a|..] == b[|a|..] + x;
    KeptOrReleasedTrans(p, q, q, b[|a|..], [], (b + x)[|a|..], time);
  }

  /** Forgetting a one-code raw press and then sending its release, after
      whatever keymap selection releases in between. */
  lemma KeptOrReleasedRelease(p: seq<(KeyId, SubmittedAction)>, i: nat, q: seq<(KeyId, SubmittedAction)>,
                              a: seq<Request>, b: seq<Request>, time: u32)
    requires i < |p| && OneCodeRaw(p[i]) && a <= b
    requires KeptOrReleased(RemoveAt(p, i), q, b[|a|..], time)
    ensures KeptOrReleased(p, q, (b + [ReleaseOf(p[i], time)])[|a|..], time)
  {
    var release := ReleaseOf(p[i], time);
    RemoveAtKeeps(p, i);
    assert KeptOrReleased(p, RemoveAt(p, i), [release], time);
    assert (b + [release])[|a|..] == b[|a|..] + [release];
    KeptOrReleasedTrans(p, RemoveAt(p, i), q, [release], b[|a|..], (b + [release])[|a|..], time);
  }

  /** Forgetting any other entry keeps every remaining one-code raw press. */
  lemma KeptOrReleasedForget(p: seq<(KeyId, SubmittedAction)>, i: nat, out: seq<Request>, time: u32)
    requires i < |p| && !OneCodeRaw(p[i])
    ensures KeptOrReleased(p, RemoveAt(p, i), out, time)
  {
    RemoveAtKeeps(p, i);
  }

  /** Once only input-method entries are left, every one-code raw press was
      released. */
  lemma ReleasedWhenGone(p: seq<(KeyId, SubmittedAction)>, q: seq<(KeyId, SubmittedAction)>,
                         out: seq<Request>, time: u32)
    requires KeptOrReleased(p, q, out, time)
    ensures (forall e :: e in q ==> e.1.IMService?) ==>
      forall e :: e in p && OneCodeRaw(e) ==> ReleaseOf(e, time) in out
  {
  }

  // ---------------------------------------------------------------------
  // Modifiers

  /** The raw bit for each modifier. */
  function ToRaw(m: Modifier): RawModifier
  {
    match m
    case Control => CONTROL
    case Alt => MOD1
    case Mod4 => MOD4
  }

  /** The fold of `update_modifiers`: the union of the raw bits of the
      active modifiers. */
  function RawMask(mods: seq<(KeyId, Modifier)>): (mask: set<RawModifier>)
    ensures forall rm :: rm in mask <==> exists i :: 0 <= i < |mods| && ToRaw(mods[i].1) == rm
  {
    if mods == [] then {}
    else
      var init := mods[..|mods| - 1];
      var mask := RawMask(init) + {ToRaw(mods[|mods| - 1].1)};
      assert forall i :: 0 <= i < |init| ==> init[i] == mods[i];
      mask
  }

  /** The mask carries a modifier's bit exactly when that modifier is held. */
  lemma MaskMatchesHeld(mods: seq<(KeyId, Modifier)>, m: Modifier)
    ensures ToRaw(m) in RawMask(mods) <==> exists i :: 0 <= i < |mods| && mods[i].1 == m
  {
    forall i | 0 <= i < |mods| ensures ToRaw(mods[i].1) == ToRaw(m) <==> mods[i].1 == m {
    }
  }

  /** `clear_all_modifiers`: drops every modifier, telling the keyboard
      only when some were active. */
  function ClearAllModifiersF(st: SubState): (r: SubState)
    ensures r.mods == [] && r.pressed == st.pressed && r.keymaps == st.keymaps
    ensures r.keymapIdx == st.keymapIdx
    ensures r.sent == st.sent + (if st.mods == [] then [] else [VirtualKey(SetModifiers({}))])
  {
    if st.mods == [] then st
    else st.(mods := [], sent := st.sent + [VirtualKey(SetModifiers({}))])
  }

  // ---------------------------------------------------------------------
  // Releasing and keymap selection: three mutually recursive operations

  /** The ids of raw-pressed keys, in order (the `filter_map` of
      `release_all_virtual_keys`). */
  function VirtualPressedIds(p: seq<(KeyId, SubmittedAction)>): (ids: seq<KeyId>)
    ensures forall e :: e in p && e.1.VirtualKeyboard? ==> e.0 in ids
    ensures forall id :: id in ids ==> exists e :: e in p && e.1.VirtualKeyboard? && e.0 == id
  {
    if p == [] then []
    else (if p[0].1.VirtualKeyboard? then [p[0].0] else []) + VirtualPressedIds(p[1..])
  }

  /** The ids of raw-pressed keys of a concatenation are those of each part,
      in order: the filter keeps order and multiplicity. */
  lemma {:induction false} VirtualPressedIdsConcat(a: seq<(KeyId, SubmittedAction)>,
                                                    b: seq<(KeyId, SubmittedAction)>)
    ensures VirtualPressedIds(a + b) == VirtualPressedIds(a) + VirtualPressedIds(b)
  {
    if a == [] {
      assert a + b == b;
    } else {
      var head := if a[0].1.VirtualKeyboard? then [a[0].0] else [];
      assert (a + b)[0] == a[0] && (a + b)[1..] == a[1..] + b;
      VirtualPressedIdsConcat(a[1..], b);
      assert head + (VirtualPressedIds(a[1..]) + VirtualPressedIds(b))
          == (head + VirtualPressedIds(a[1..])) + VirtualPressedIds(b);
    }
  }

  /** A single entry contributes its id exactly when it is raw-pressed. */
  lemma VirtualPressedIdsSingle(e: (KeyId, SubmittedAction))
    ensures VirtualPressedIds([e]) == if e.1.VirtualKeyboard? then [e.0] else []
  {
    assert [e][1..] == [];
  }

  /** `select_keymap`, as written: the index is recorded first, then the
      modifiers are cleared, every raw-pressed key is released (which may
      reselect another keymap), and finally the keymap at `idx` is sent.
      With distinct key ids, a switch leaves exactly the input-method
      entries, in order, and sends the release of every one-code raw press. */
  function SelectKeymapF(st: SubState, idx: nat, time: u32): (r: SubState)
    requires WellFormed(st) && idx < |st.keymaps|
    ensures WellFormed(r) && Evolves(st, r)
    ensures st.keymapIdx == Some(idx) ==> r == st
    ensures KeptOrReleased(st.pressed, r.pressed, r.sent[|st.sent|..], time)
    ensures DistinctIds(st.pressed) ==>
      r.pressed == if st.keymapIdx == Some(idx) then st.pressed else ImEntries(st.pressed)
    ensures DistinctIds(st.pressed) && st.keymapIdx != Some(idx) ==>
      forall e :: e in st.pressed && OneCodeRaw(e) ==> ReleaseOf(e, time) in r.sent[|st.sent|..]
    ensures OnKeymap(st.pressed, idx) ==> r.keymapIdx == Some(idx)
    decreases |st.pressed|, 2, 0
  {
    if st.keymapIdx == Some(idx) then st
    else
      var s1 := ClearAllModifiersF(st.(keymapIdx := Some(idx)));
      var s2 := ReleaseAllF(s1, VirtualPressedIds(s1.pressed), time);
      SelectKeymapStep(st, s1, s2, idx, time);
      s2.(sent := s2.sent + [VirtualKey(UpdateKeymap(s2.keymaps[idx]))])
  }

  /** The switching branch of `SelectKeymapF`, over any state `s2` that
      releasing the raw-pressed keys of `s1` may leave, as `ReleaseAllF`
      promises it. */
  lemma SelectKeymapStep(st: SubState, s1: SubState, s2: SubState, idx: nat, time: u32)
    requires WellFormed(st) && idx < |st.keymaps| && st.keymapIdx != Some(idx)
    requires s1 == ClearAllModifiersF(st.(keymapIdx := Some(idx)))
    requires WellFormed(s2) && Evolves(s1, s2)
    requires KeptOrReleased(s1.pressed, s2.pressed, s2.sent[|s1.sent|..], time)
    requires DistinctIds(s1.pressed) ==>
      forall e :: e in s2.pressed ==> e.0 !in VirtualPressedIds(s1.pressed)
    requires DistinctIds(s1.pressed) ==>
      forall e :: e in s1.pressed && OneCodeRaw(e) && e.0 in VirtualPressedIds(s1.pressed) ==>
        ReleaseOf(e, time) in s2.sent[|s1.sent|..]
    requires DistinctIds(s1.pressed) && (forall e :: e in s1.pressed && e.1.IMService? ==> e.0 !in VirtualPressedIds(s1.pressed))
             ==> ImEntries(s2.pressed) == ImEntries(s1.pressed)
    requires s1.keymapIdx.Some? && OnKeymap(s1.pressed, s1.keymapIdx.value) ==> s2.keymapIdx == s1.keymapIdx
    ensures var r := s2.(sent := s2.sent + [VirtualKey(UpdateKeymap(s2.keymaps[idx]))]);
      && WellFormed(r) && Evolves(st, r)
      && KeptOrReleased(st.pressed, r.pressed, r.sent[|st.sent|..], time)
      && (DistinctIds(st.pressed) ==> r.pressed == ImEntries(st.pressed))
      && (DistinctIds(st.pressed) ==>
            forall e :: e in st.pressed && OneCodeRaw(e) ==> ReleaseOf(e, time) in r.sent[|st.sent|..])
      && (OnKeymap(st.pressed, idx) ==> r.keymapIdx == Some(idx))
  {
    var keymap := VirtualKey(UpdateKeymap(s2.keymaps[idx]));
    var r := s2.(sent := s2.sent + [keymap]);
    EvolvesTrans(st, s1, s2);
    EvolvesAppend(st, s2, keymap);
    ImIdsNotRaw(s1.pressed);
    OnlyImLeft(s1.pressed, s2.pressed);
    ImEntriesMembers(st.pressed);
    KeptOrReleasedChain(st.pressed, st.pressed, s2.pressed, st.sent, s1.sent, s2.sent, time);
    KeptOrReleasedAppend(st.pressed, s2.pressed, st.sent, s2.sent, [keymap], time);
    ReleasedWhenGone(st.pressed, s2.pressed, r.sent[|st.sent|..], time);
  }

  /** The loop of `release_all_virtual_keys`: releases the given ids in
      order. */
  function ReleaseAllF(st: SubState, ids: seq<KeyId>, time: u32): (r: SubState)
    requires WellFormed(st)
    ensures WellFormed(r) && Evolves(st, r)
    ensures KeptOrReleased(st.pressed, r.pressed, r.sent[|st.sent|..], time)
    ensures DistinctIds(st.pressed) ==> forall e :: e in r.pressed ==> e.0 !in ids
    ensures DistinctIds(st.pressed) ==>
      forall e :: e in st.pressed && OneCodeRaw(e) && e.0 in ids ==> ReleaseOf(e, time) in r.sent[|st.sent|..]
    ensures DistinctIds(st.pressed) && (forall e :: e in st.pressed && e.1.IMService? ==> e.0 !in ids)
            ==> ImEntries(r.pressed) == ImEntries(st.pressed)
    ensures st.keymapIdx.Some? && OnKeymap(st.pressed, st.keymapIdx.value) ==> r.keymapIdx == st.keymapIdx
    decreases |st.pressed|, 1, |ids|
  {
    if ids == [] then st
    else
      var s1 := HandleReleaseF(st, ids[0], time);
      var s2 := ReleaseAllF(s1, ids[1..], time);
      EvolvesTrans(st, s1, s2);
      KeptOrReleasedChain(st.pressed, s1.pressed, s2.pressed, st.sent, s1.sent, s2.sent, time);
      assert forall x :: x in ids <==> x == ids[0] || x in ids[1..];
      assert st.keymapIdx.Some? && OnKeymap(st.pressed, st.keymapIdx.value) ==>
        OnKeymap(s1.pressed, st.keymapIdx.value);
      s2
  }

  /** `handle_release`: forgets the first entry of the key; a raw press of a
      single key code is released on that key code's keymap. */
  function HandleReleaseF(st: SubState, id: KeyId, time: u32): (r: SubState)
    requires WellFormed(st)
    ensures WellFormed(r) && Evolves(st, r)
    ensures KeptOrReleased(st.pressed, r.pressed, r.sent[|st.sent|..], time)
    ensures DistinctIds(st.pressed) ==> forall e :: e in r.pressed ==> e.0 != id
    ensures DistinctIds(st.pressed) && (forall e :: e in st.pressed && e.1.IMService? ==> e.0 != id)
            ==> ImEntries(r.pressed) == ImEntries(st.pressed)
    ensures st.keymapIdx.Some? && OnKeymap(st.pressed, st.keymapIdx.value) ==> r.keymapIdx == st.keymapIdx
    ensures var removed := RemoveFirst(st.pressed, HasId(id));
      removed.1.Some? && OneCodeRaw(removed.1.value)
      && st.keymapIdx == Some(removed.1.value.1.keycodes[0].keymapIdx)
      ==> r == st.(pressed := removed.0, sent := st.sent + [ReleaseOf(removed.1.value, time)])
    decreases |st.pressed|, 0, 0
  {
    NoEntryOf(st.pressed, id);
    match Position(st.pressed, HasId(id))
    case None => st
    case Some(i) =>
      RemoveAtKeeps(st.pressed, i);
      var s1 := st.(pressed := RemoveAt(st.pressed, i));
      assert st.pressed[i] in st.pressed && st.pressed[i].0 == id;
      if OneCodeRaw(st.pressed[i]) then
        var kc := st.pressed[i].1.keycodes[0];
        assert kc in st.pressed[i].1.keycodes;
        ImEntriesRemoveRaw(st.pressed, i);
        var s2 := SelectKeymapF(s1, kc.keymapIdx, time);
        var release := VirtualKey(Switch(kc.code, Released, time));
        EvolvesTrans(st, s1, s2);
        EvolvesAppend(st, s2, release);
        ImEntriesIdempotent(s1.pressed);
        KeptOrReleasedRelease(st.pressed, i, s2.pressed, st.sent, s2.sent, time);
        s2.(sent := s2.sent + [release])
      else
        KeptOrReleasedForget(st.pressed, i, [], time);
        if st.pressed[i].1.VirtualKeyboard? then ImEntriesRemoveRaw(st.pressed, i); s1
        else s1
  }

  /** `use_layout`: the new keymaps replace the old ones and, with no index
      recorded, the first keymap is always selected. */
  function UseLayoutF(st: SubState, keymaps: seq<Keymap>, time: u32): (r: SubState)
    requires |keymaps| > 0 && WellFormed(st.(keymaps := keymaps))
    ensures WellFormed(r) && r.keymaps == keymaps
    ensures |r.sent| > |st.sent| && r.sent[|r.sent| - 1] == VirtualKey(UpdateKeymap(keymaps[0]))
    ensures OnKeymap(st.pressed, 0) ==> r.keymapIdx == Some(0)
  {
    SelectKeymapF(st.(keymaps := keymaps, keymapIdx := None), 0, time)
  }

  // ---------------------------------------------------------------------
  // Pressing

  /** The input-method path is taken only with an active input method, no
      modifier held, and text to submit. */
  predicate CommitsAsText(st: SubState, im: Option<ImLink>, data: SubmitData)
  {
    im.Some? && im.value.active && st.mods == [] && data.Text?
  }

  /** The key codes of a key, in order. */
  function Codes(kcs: seq<KeyCode>): (r: seq<nat>)
    ensures |r| == |kcs| && forall j :: 0 <= j < |kcs| ==> r[j] == kcs[j].code
  {
    seq(|kcs|, j requires 0 <= j < |kcs| => kcs[j].code)
  }

  /** Some key code of `kcs` lies on a keymap other than the recorded one,
      so the raw path switches keymaps at least once. */
  predicate SwitchesKeymap(current: Option<nat>, kcs: seq<KeyCode>)
  {
    exists kc :: kc in kcs && current != Some(kc.keymapIdx)
  }

  lemma SwitchesKeymapCons(current: Option<nat>, kcs: seq<KeyCode>)
    requires kcs != []
    ensures SwitchesKeymap(current, kcs)
        <==> current != Some(kcs[0].keymapIdx) || SwitchesKeymap(current, kcs[1..])
  {
    assert kcs[0] in kcs;
    assert forall kc :: kc in kcs <==> kc == kcs[0] || kc in kcs[1..];
  }

  /** The raw path's effect on `pressed`, one key code at a time: a switch
      leaves the input-method entries, and later switches keep them. */
  lemma PressedAfterSwitches(p: seq<(KeyId, SubmittedAction)>, p1: seq<(KeyId, SubmittedAction)>,
                             pr: seq<(KeyId, SubmittedAction)>, first: bool, rest: bool)
    requires DistinctIds(p) ==> DistinctIds(p1) && p1 == if first then ImEntries(p) else p
    requires DistinctIds(p1) ==> pr == if rest then ImEntries(p1) else p1
    ensures DistinctIds(p) ==> pr == if first || rest then ImEntries(p) else p
  {
    ImEntriesIdempotent(p);
  }

  /** The loop of the raw path of `handle_press`: each key code selects its
      own keymap, then is pressed (and, when the key has several key codes,
      released straight away). With distinct key ids, `pressed` is unchanged
      unless some key code needs another keymap; then only the input-method
      entries stay, every one-code raw press having been released. */
  function PressKeycodesF(st: SubState, kcs: seq<KeyCode>, count: nat, time: u32): (r: SubState)
    requires WellFormed(st) && forall kc :: kc in kcs ==> kc.keymapIdx < |st.keymaps|
    ensures WellFormed(r) && r.keymaps == st.keymaps && st.sent <= r.sent
    ensures |r.pressed| <= |st.pressed| && forall e :: e in r.pressed ==> e in st.pressed
    ensures forall k :: |st.sent| <= k < |r.sent| ==> r.sent[k].VirtualKey?
    ensures KeptOrReleased(st.pressed, r.pressed, r.sent[|st.sent|..], time)
    ensures DistinctIds(st.pressed) ==>
      r.pressed == if SwitchesKeymap(st.keymapIdx, kcs) then ImEntries(st.pressed) else st.pressed
    ensures r.mods == if SwitchesKeymap(st.keymapIdx, kcs) then [] else st.mods
    ensures !SwitchesKeymap(st.keymapIdx, kcs) ==> r.keymapIdx == st.keymapIdx
    decreases |kcs|
  {
    if kcs == [] then st
    else
      var s1 := SelectKeymapF(st, kcs[0].keymapIdx, time);
      var code := kcs[0].code;
      var reqs := PressRequests(code, count, time);
      var s2 := s1.(sent := s1.sent + reqs);
      var r := PressKeycodesF(s2, kcs[1..], count, time);
      KeptOrReleasedAppend(st.pressed, s1.pressed, st.sent, s1.sent, reqs, time);
      KeptOrReleasedChain(st.pressed, s1.pressed, r.pressed, st.sent, s2.sent, r.sent, time);
      VirtualOnlyStep(st.sent, s1.sent, reqs, r.sent);
      SwitchesKeymapCons(st.keymapIdx, kcs);
      assert st.keymapIdx != Some(kcs[0].keymapIdx) ==> s1.mods == [] by {
        if st.keymapIdx != Some(kcs[0].keymapIdx) {
          SelectKeymapSwitches(st, kcs[0].keymapIdx, time);
        }
      }
      PressedAfterSwitches(st.pressed, s2.pressed, r.pressed, st.keymapIdx != Some(kcs[0].keymapIdx),
                           SwitchesKeymap(s2.keymapIdx, kcs[1..]));
      r
  }

  /** One step of the raw path sends only virtual-keyboard requests: the
      releases of a keymap switch, a key code's requests, then the rest. */
  lemma VirtualOnlyStep(a: seq<Request>, b: seq<Request>, reqs: seq<Request>, c: seq<Request>)
    requires a <= b && b + reqs <= c
    requires forall k :: |a| <= k < |b| ==> ReleaseOnly(b[k])
    requires forall k :: 0 <= k < |reqs| ==> reqs[k].VirtualKey?
    requires forall k :: |b + reqs| <= k < |c| ==> c[k].VirtualKey?
    ensures forall k :: |a| <= k < |c| ==> c[k].VirtualKey?
  {
    forall k | |a| <= k < |c| ensures c[k].VirtualKey? {
      if k < |b| {
        assert c[k] == b[k];
      } else if k < |b + reqs| {
        assert c[k] == reqs[k - |b|];
      }
    }
  }

  /** One step of `PressKeycodesF`: the first key code selects its keymap
      and sends its requests, then the rest follow. */
  lemma PressKeycodesUnfold(st: SubState, kcs: seq<KeyCode>, count: nat, time: u32)
    requires WellFormed(st) && forall kc :: kc in kcs ==> kc.keymapIdx < |st.keymaps|
    requires kcs != []
    ensures var s1 := SelectKeymapF(st, kcs[0].keymapIdx, time);
      var s2 := s1.(sent := s1.sent + PressRequests(kcs[0].code, count, time));
      WellFormed(s2) && (forall kc :: kc in kcs[1..] ==> kc.keymapIdx < |s2.keymaps|)
      && PressKeycodesF(st, kcs, count, time) == PressKeycodesF(s2, kcs[1..], count, time)
  {
    assert forall kc :: kc in kcs[1..] ==> kc in kcs;
  }

  /** The requests for one key code of a key with `count` key codes. */
  function PressRequests(code: nat, count: nat, time: u32): (reqs: seq<Request>)
    ensures |reqs| == (if count == 1 then 1 else 2)
    ensures reqs[0] == VirtualKey(Switch(code, Pressed, time))
    ensures count != 1 ==> reqs[1] == VirtualKey(Switch(code, Released, time))
    ensures forall k :: 0 <= k < |reqs| ==> reqs[k].VirtualKey?
  {
    if count == 1 then [VirtualKey(Switch(code, Pressed, time))]
    else [VirtualKey(Switch(code, Pressed, time)), VirtualKey(Switch(code, Released, time))]
  }

  /** `handle_press`: the text is committed through the input method when
      possible, otherwise the key codes are pressed; either way the key is
      remembered at the end of `pressed`. */
  function HandlePressF(st: SubState, im: Option<ImLink>, keyId: KeyId, data: SubmitData,
                        keycodes: seq<KeyCode>, time: u32): (r: SubState)
    requires WellFormed(st) && forall kc :: kc in keycodes ==> kc.keymapIdx < |st.keymaps|
    ensures WellFormed(r) && r.keymaps == st.keymaps && st.sent <= r.sent
    ensures |r.pressed| > 0
    ensures r.pressed[|r.pressed| - 1]
         == (keyId, if CommitsAsText(st, im, data) then IMService else VirtualKeyboard(keycodes))
    ensures CommitsAsText(st, im, data) ==> r.pressed == st.pressed + [(keyId, IMService)]
    ensures !CommitsAsText(st, im, data) ==> KeptOrReleased(st.pressed, r.pressed, r.sent[|st.sent|..], time)
    ensures !CommitsAsText(st, im, data) && DistinctIds(st.pressed) ==>
      r.pressed == (if SwitchesKeymap(st.keymapIdx, keycodes) then ImEntries(st.pressed) else st.pressed)
                   + [(keyId, VirtualKeyboard(keycodes))]
    ensures CommitsAsText(st, im, data) ==>
      r == st.(sent := st.sent + [InputMethod(ImService.CommitStringReq(data.text)),
                                  InputMethod(ImService.CommitReq(im.value.serial))],
               pressed := st.pressed + [(keyId, IMService)])
    ensures !CommitsAsText(st, im, data) ==>
      r.mods == (if SwitchesKeymap(st.keymapIdx, keycodes) then [] else st.mods)
      && (!SwitchesKeymap(st.keymapIdx, keycodes) ==> r.keymapIdx == st.keymapIdx)
  {
    if CommitsAsText(st, im, data) then
      st.(sent := st.sent + [InputMethod(ImService.CommitStringReq(data.text)),
                            InputMethod(ImService.CommitReq(im.value.serial))],
          pressed := st.pressed + [(keyId, IMService)])
    else
      var s1 := PressKeycodesF(st, keycodes, |keycodes|, time);
      var entry := (keyId, VirtualKeyboard(keycodes));
      var out := s1.sent[|st.sent|..];
      KeptOrReleasedTrans(st.pressed, s1.pressed, s1.pressed + [entry], out, [], out, time);
      s1.(pressed := s1.pressed + [entry])
  }

  // ---------------------------------------------------------------------
  // The arbiter object

  /** `Submission`. The virtual keyboard is the trace `sent`; the input
      method, when there is one, is an `IMService` that the arbiter only
      queries (its commit functions return the request to send). */
  class Submission {
    const imservice: ImService.IMService?
    var modifiersActive: seq<(KeyId, Modifier)>
    var pressed: seq<(KeyId, SubmittedAction)>
    var keymapFds: seq<Keymap>
    var keymapIdx: Option<nat>
    var sent: seq<Request>

    function Model(): SubState
      reads this
    {
      SubState(modifiersActive, pressed, keymapFds, keymapIdx, sent)
    }

    ghost predicate Valid()
      reads this
    {
      WellFormed(Model())
    }

    /** What the arbiter sees of its input method. */
    function Link(): Option<ImLink>
      reads this, imservice
    {
      if imservice == null then None else Some(ImLink(imservice.current.active, imservice.serial))
    }

    /** `Submission::new`: nothing held, nothing pressed, no keymap. */
    constructor (imservice: ImService.IMService?)
      ensures this.imservice == imservice
      ensures Model() == SubState([], [], [], None, [])
      ensures Valid()
    {
      this.imservice := imservice;
      modifiersActive := [];
      pressed := [];
      keymapFds := [];
      keymapIdx := None;
      sent := [];
    }

    method HandlePress(keyId: KeyId, data: SubmitData, keycodes: seq<KeyCode>, time: u32)
      requires Valid()
      requires forall kc :: kc in keycodes ==> kc.keymapIdx < |keymapFds|
      modifies this
      ensures Valid()
      ensures Model() == HandlePressF(old(Model()), old(Link()), keyId, data, keycodes, time)
    {
      var committed := TryCommitText(data);
      if committed {
        pressed := pressed + [(keyId, IMService)];
      } else {
        PressKeycodes(keycodes, time);
        pressed := pressed + [(keyId, VirtualKeyboard(keycodes))];
      }
    }

    /** The input-method half of `handle_press`: commits the text when the
        input method is there, no modifier is held and it accepts both the
        string and the commit. */
    method TryCommitText(data: SubmitData) returns (committed: bool)
      modifies this
      ensures committed == CommitsAsText(old(Model()), old(Link()), data)
      ensures committed ==> Model() == old(Model()).(sent := old(sent)
        + [InputMethod(ImService.CommitStringReq(data.text)), InputMethod(ImService.CommitReq(old(Link()).value.serial))])
      ensures !committed ==> Model() == old(Model())
    {
      committed := false;
      if imservice != null && modifiersActive == [] {
        match data {
          case Text(text) =>
            var res := imservice.CommitString(text);
            if res.Ok? {
              sent := sent + [InputMethod(res.value)];
              var c := imservice.Commit();
              if c.Ok? {
                sent := sent + [InputMethod(c.value)];
                committed := true;
              }
            }
          case Erase =>
          case Keycodes =>
        }
      }
    }

    /** The raw half of `handle_press`: the loop over the key codes. */
    method PressKeycodes(keycodes: seq<KeyCode>, time: u32)
      requires Valid()
      requires forall kc :: kc in keycodes ==> kc.keymapIdx < |keymapFds|
      modifies this
      ensures Valid()
      ensures Model() == PressKeycodesF(old(Model()), keycodes, |keycodes|, time)
    {
      var count := |keycodes|;
      for i := 0 to |keycodes|
        invariant Valid() && keymapFds == old(keymapFds)
        invariant PressKeycodesF(old(Model()), keycodes, count, time)
               == PressKeycodesF(Model(), keycodes[i..], count, time)
      {
        ghost var before := Model();
        assert keycodes[i] in keycodes;
        PressKeycode(keycodes[i], count, time);
        assert keycodes[i..][1..] == keycodes[i + 1..];
        PressKeycodesUnfold(before, keycodes[i..], count, time);
      }
    }

    /** One turn of the loop in `handle_press`: select the key code's keymap,
        then press it, and release it straight away when the key has several
        key codes. */
    method PressKeycode(keycode: KeyCode, count: nat, time: u32)
      requires Valid() && keycode.keymapIdx < |keymapFds|
      modifies this
      ensures Valid()
      ensures var selected := SelectKeymapF(old(Model()), keycode.keymapIdx, time);
        Model() == selected.(sent := selected.sent + PressRequests(keycode.code, count, time))
    {
      SelectKeymap(keycode.keymapIdx, time);
      ghost var selected := Model();
      var code := keycode.code;
      match count {
        case 1 =>
          sent := sent + [VirtualKey(Switch(code, Pressed, time))];
        case _ =>
          sent := sent + [VirtualKey(Switch(code, Pressed, time))];
          sent := sent + [VirtualKey(Switch(code, Released, time))];
      }
      assert sent == selected.sent + PressRequests(code, count, time);
    }

    method HandleRelease(keyId: KeyId, time: u32)
      requires Valid()
      modifies this
      ensures Valid()
      ensures Model() == HandleReleaseF(old(Model()), keyId, time)
      decreases |pressed|, 0
    {
      var index := Position(pressed, HasId(keyId));
      if index.Some? {
        var entry := pressed[index.value];
        RemoveAtKeeps(pressed, index.value);
        pressed := RemoveAt(pressed, index.value);
        match entry.1 {
          case IMService =>
          case VirtualKeyboard(keycodes) =>
            if |keycodes| == 1 {
              assert keycodes[0] in keycodes && entry in old(pressed);
              SelectKeymap(keycodes[0].keymapIdx, time);
              sent := sent + [VirtualKey(Switch(keycodes[0].code, Released, time))];
            }
        }
      }
    }

    method HandleAddModifier(keyId: KeyId, modifier: Modifier, time: u32)
      modifies this
      ensures modifiersActive == old(modifiersActive) + [(keyId, modifier)]
      ensures sent == old(sent) + [VirtualKey(SetModifiers(RawMask(modifiersActive)))]
      ensures pressed == old(pressed) && keymapFds == old(keymapFds) && keymapIdx == old(keymapIdx)
      ensures IsModifierActive(modifier) && ToRaw(modifier) in RawMask(modifiersActive)
    {
      modifiersActive := modifiersActive + [(keyId, modifier)];
      UpdateModifiers();
      assert modifiersActive[|modifiersActive| - 1].1 == modifier;
    }

    method HandleDropModifier(keyId: KeyId, time: u32)
      modifies this
      ensures modifiersActive == RemoveFirst(old(modifiersActive), HasId(keyId)).0
      ensures sent == old(sent) + [VirtualKey(SetModifiers(RawMask(modifiersActive)))]
      ensures pressed == old(pressed) && keymapFds == old(keymapFds) && keymapIdx == old(keymapIdx)
    {
      var rest, _ := VecRemove(modifiersActive, HasId(keyId));
      modifiersActive := rest;
      UpdateModifiers();
    }

    /** `update_modifiers`: sends the mask of the held modifiers. */
    method UpdateModifiers()
      modifies this
      ensures sent == old(sent) + [VirtualKey(SetModifiers(RawMask(modifiersActive)))]
      ensures Model() == old(Model()).(sent := sent)
    {
      sent := sent + [VirtualKey(SetModifiers(RawMask(modifiersActive)))];
    }

    /** `is_modifier_active`. */
    function IsModifierActive(modifier: Modifier): (b: bool)
      reads this
      ensures b <==> exists i :: 0 <= i < |modifiersActive| && modifiersActive[i].1 == modifier
    {
      Position(modifiersActive, HasModifier(modifier)).Some?
    }

    /** `get_active_modifiers`. */
    function GetActiveModifiers(): (r: set<Modifier>)
      reads this
      ensures forall m :: m in r <==> IsModifierActive(m)
    {
      set i | 0 <= i < |modifiersActive| :: modifiersActive[i].1
    }

    method ClearAllModifiers()
      modifies this
      ensures Model() == ClearAllModifiersF(old(Model()))
    {
      if modifiersActive == [] {
        return;
      }
      modifiersActive := [];
      sent := sent + [VirtualKey(SetModifiers({}))];
    }

    method ReleaseAllVirtualKeys(time: u32)
      requires Valid()
      modifies this
      ensures Valid()
      ensures Model() == ReleaseAllF(old(Model()), VirtualPressedIds(old(pressed)), time)
      decreases |pressed|, 1
    {
      var ids := VirtualPressedIds(pressed);
      ghost var start := Model();
      for i := 0 to |ids|
        invariant Valid()
        invariant |pressed| <= |start.pressed|
        invariant ReleaseAllF(start, ids, time) == ReleaseAllF(Model(), ids[i..], time)
      {
        assert ids[i..][1..] == ids[i + 1..];
        HandleRelease(ids[i], time);
      }
    }

    method SelectKeymap(idx: nat, time: u32)
      requires Valid() && idx < |keymapFds|
      modifies this
      ensures Valid()
      ensures Model() == SelectKeymapF(old(Model()), idx, time)
      decreases |pressed|, 2
    {
      if keymapIdx != Some(idx) {
        ghost var st := Model();
        SelectKeymapUnfold(st, idx, time);
        keymapIdx := Some(idx);
        ClearAllModifiers();
        ReleaseAllVirtualKeys(time);
        sent := sent + [VirtualKey(UpdateKeymap(keymapFds[idx]))];
      }
    }

    method UseLayout(keymaps: seq<Keymap>, time: u32)
      requires |keymaps| > 0 && WellFormed(Model().(keymaps := keymaps))
      modifies this
      ensures Valid()
      ensures Model() == UseLayoutF(old(Model()), keymaps, time)
    {
      keymapFds := keymaps;
      keymapIdx := None;
      SelectKeymap(0, time);
    }
  }

  // ---------------------------------------------------------------------
  // Properties of keymap selection and release

  /** Selecting a different keymap drops every modifier (telling the
      keyboard first, and only if some were held), and ends by sending the
      chosen keymap; with distinct key ids, the release of every one-code
      raw press is sent before that keymap. */
  lemma SelectKeymapSwitches(st: SubState, idx: nat, time: u32)
    requires WellFormed(st) && idx < |st.keymaps| && st.keymapIdx != Some(idx)
    ensures var r := SelectKeymapF(st, idx, time);
      && r.mods == []
      && |r.sent| > |st.sent|
      && r.sent[|r.sent| - 1] == VirtualKey(UpdateKeymap(st.keymaps[idx]))
      && (st.mods != [] <==> r.sent[|st.sent|] == VirtualKey(SetModifiers({})))
      && (forall k :: |st.sent| < k < |r.sent| ==> r.sent[k] != VirtualKey(SetModifiers({})))
      && (DistinctIds(st.pressed) ==>
            forall e :: e in st.pressed && OneCodeRaw(e) ==> ReleaseOf(e, time) in r.sent[|st.sent|..|r.sent| - 1])
  {
    var s1 := ClearAllModifiersF(st.(keymapIdx := Some(idx)));
    var s2 := ReleaseAllF(s1, VirtualPressedIds(s1.pressed), time);
    SelectKeymapUnfold(st, idx, time);
    SelectKeymapStep(st, s1, s2, idx, time);
    SelectKeymapTrace(st, s1, s2, idx, time);
  }

  /** The requests of a keymap switch, over any state `s2` that releasing
      the raw-pressed keys of `s1` may leave: the empty mask first iff a
      modifier was held, never again, and the releases before the keymap. */
  lemma SelectKeymapTrace(st: SubState, s1: SubState, s2: SubState, idx: nat, time: u32)
    requires idx < |st.keymaps|
    requires s1 == ClearAllModifiersF(st.(keymapIdx := Some(idx)))
    requires Evolves(s1, s2)
    requires DistinctIds(st.pressed) ==>
      forall e :: e in st.pressed && OneCodeRaw(e) ==>
        ReleaseOf(e, time) in (s2.sent + [VirtualKey(UpdateKeymap(s2.keymaps[idx]))])[|st.sent|..]
    ensures var r := s2.(sent := s2.sent + [VirtualKey(UpdateKeymap(s2.keymaps[idx]))]);
      && r.mods == []
      && |r.sent| > |st.sent|
      && r.sent[|r.sent| - 1] == VirtualKey(UpdateKeymap(st.keymaps[idx]))
      && (st.mods != [] <==> r.sent[|st.sent|] == VirtualKey(SetModifiers({})))
      && (forall k :: |st.sent| < k < |r.sent| ==> r.sent[k] != VirtualKey(SetModifiers({})))
      && (DistinctIds(st.pressed) ==>
            forall e :: e in st.pressed && OneCodeRaw(e) ==> ReleaseOf(e, time) in r.sent[|st.sent|..|r.sent| - 1])
  {
    var keymap := VirtualKey(UpdateKeymap(s2.keymaps[idx]));
    var r := s2.(sent := s2.sent + [keymap]);
    EvolvesAppend(s1, s2, keymap);
    var tail := r.sent[|st.sent|..];
    assert tail == r.sent[|st.sent|..|r.sent| - 1] + [keymap];
    forall e | DistinctIds(st.pressed) && e in st.pressed && OneCodeRaw(e)
      ensures ReleaseOf(e, time) in r.sent[|st.sent|..|r.sent| - 1]
    {
      assert ReleaseOf(e, time) in tail;
    }
  }

  /** As written, the recorded keymap index can disagree with the keymap
      sent last: selecting keymap 0 while a key of keymap 1 is held releases
      that key on keymap 1, which records index 1, and then sends keymap 0. */
  lemma KeymapIndexDivergence()
    ensures var st := SubState([], [(7, VirtualKeyboard([KeyCode(30, 1)]))], ["A", "B"], Some(1), []);
      var r := SelectKeymapF(st, 0, 0);
      && r.keymapIdx == Some(1)
      && r.sent == [VirtualKey(UpdateKeymap("B")), VirtualKey(Switch(30, Released, 0)),
                    VirtualKey(UpdateKeymap("A"))]
      && r.pressed == []
  {
    var st := SubState([], [(7, VirtualKeyboard([KeyCode(30, 1)]))], ["A", "B"], Some(1), []);
    var s1 := SubState([], [(7, VirtualKeyboard([KeyCode(30, 1)]))], ["A", "B"], Some(0), []);
    var released := SubState([], [], ["A", "B"], Some(1),
                             [VirtualKey(UpdateKeymap("B")), VirtualKey(Switch(30, Released, 0))]);
    SelectKeymapUnfold(st, 0, 0);
    assert ClearAllModifiersF(st.(keymapIdx := Some(0))) == s1;
    DivergentReleaseAll();
    var r := released.(sent := released.sent + [VirtualKey(UpdateKeymap("A"))]);
    assert SelectKeymapF(st, 0, 0) == r;
    assert r.sent == [VirtualKey(UpdateKeymap("B")), VirtualKey(Switch(30, Released, 0)),
                      VirtualKey(UpdateKeymap("A"))];
  }

  /** The loop of `release_all_virtual_keys` in `KeymapIndexDivergence`. */
  lemma DivergentReleaseAll()
    ensures var s1 := SubState([], [(7, VirtualKeyboard([KeyCode(30, 1)]))], ["A", "B"], Some(0), []);
      ReleaseAllF(s1, VirtualPressedIds(s1.pressed), 0)
      == SubState([], [], ["A", "B"], Some(1), [VirtualKey(UpdateKeymap("B")), VirtualKey(Switch(30, Released, 0))])
  {
    var s1 := SubState([], [(7, VirtualKeyboard([KeyCode(30, 1)]))], ["A", "B"], Some(0), []);
    var released := SubState([], [], ["A", "B"], Some(1),
                             [VirtualKey(UpdateKeymap("B")), VirtualKey(Switch(30, Released, 0))]);
    VirtualPressedIdsSingle(s1.pressed[0]);
    assert s1.pressed == [s1.pressed[0]];
    DivergentRelease();
    assert ReleaseAllF(released, [], 0) == released;
  }

  /** The switching branch of `SelectKeymapF`, spelled out. */
  lemma SelectKeymapUnfold(st: SubState, idx: nat, time: u32)
    requires WellFormed(st) && idx < |st.keymaps| && st.keymapIdx != Some(idx)
    ensures var s1 := ClearAllModifiersF(st.(keymapIdx := Some(idx)));
      && WellFormed(s1)
      && SelectKeymapF(st, idx, time)
         == var s2 := ReleaseAllF(s1, VirtualPressedIds(s1.pressed), time);
            s2.(sent := s2.sent + [VirtualKey(UpdateKeymap(st.keymaps[idx]))])
  {
  }

  /** The inner step of `KeymapIndexDivergence`: releasing the key of
      keymap 1 while index 0 is recorded selects keymap 1 first. */
  lemma DivergentRelease()
    ensures HandleReleaseF(SubState([], [(7, VirtualKeyboard([KeyCode(30, 1)]))], ["A", "B"], Some(0), []), 7, 0)
         == SubState([], [], ["A", "B"], Some(1),
                     [VirtualKey(UpdateKeymap("B")), VirtualKey(Switch(30, Released, 0))])
  {
    var s1 := SubState([], [(7, VirtualKeyboard([KeyCode(30, 1)]))], ["A", "B"], Some(0), []);
    var empty := s1.(pressed := []);
    assert Position(s1.pressed, HasId(7)) == Some(0);
    assert RemoveAt(s1.pressed, 0) == [];
    SelectOnEmpty();
  }

  /** Selecting keymap 1 with nothing pressed only records and sends it. */
  lemma SelectOnEmpty()
    ensures SelectKeymapF(SubState([], [], ["A", "B"], Some(0), []), 1, 0)
         == SubState([], [], ["A", "B"], Some(1), [VirtualKey(UpdateKeymap("B"))])
  {
    var empty := SubState([], [], ["A", "B"], Some(1), []);
    assert ClearAllModifiersF(empty) == empty;
    assert VirtualPressedIds(empty.pressed) == [];
    assert ReleaseAllF(empty, [], 0) == empty;
  }

  /** The release of a key, against `vec_remove`'s contract: only a raw
      press of exactly one key code is released, as the last request; any
      other entry of the key is just forgotten. When the release first
      switches keymaps, with distinct key ids only the input-method entries
      of the other keys stay pressed. */
  lemma ReleaseEmission(st: SubState, id: KeyId, time: u32)
    requires WellFormed(st)
    ensures var r := HandleReleaseF(st, id, time);
      var removed := RemoveFirst(st.pressed, HasId(id));
      var single := removed.1.Some? && OneCodeRaw(removed.1.value);
      && (single ==>
            |r.sent| > |st.sent| && r.sent[|r.sent| - 1] == ReleaseOf(removed.1.value, time))
      && (single && DistinctIds(st.pressed)
          && st.keymapIdx != Some(removed.1.value.1.keycodes[0].keymapIdx)
          ==> r.pressed == ImEntries(removed.0))
      && (single && st.keymapIdx != Some(removed.1.value.1.keycodes[0].keymapIdx)
          ==> |r.sent| >= |st.sent| + 2 && r.mods == []
              && r.sent[|r.sent| - 2] == VirtualKey(UpdateKeymap(st.keymaps[removed.1.value.1.keycodes[0].keymapIdx])))
      && (!single ==> r == st.(pressed := removed.0))
  {
    var removed := RemoveFirst(st.pressed, HasId(id));
    if removed.1.Some? && OneCodeRaw(removed.1.value) {
      var i := Position(st.pressed, HasId(id)).value;
      RemoveAtKeeps(st.pressed, i);
      var j := removed.1.value.1.keycodes[0].keymapIdx;
      if st.keymapIdx != Some(j) {
        assert removed.1.value.1.keycodes[0] in removed.1.value.1.keycodes;
        SelectKeymapSwitches(st.(pressed := removed.0), j, time);
      }
    }
  }

  /** A key that was never pressed is released without any effect. */
  lemma ReleaseUnknownKey(st: SubState, id: KeyId, time: u32)
    requires WellFormed(st) && forall e :: e in st.pressed ==> e.0 != id
    ensures HandleReleaseF(st, id, time) == st
  {
    assert Position(st.pressed, HasId(id)).None? by {
      forall j | 0 <= j < |st.pressed| ensures !HasId(id)(st.pressed[j]) {
        assert st.pressed[j] in st.pressed;
      }
    }
  }

  /** `use_layout` always selects the first new keymap: every modifier is
      dropped and, with distinct key ids, only the input-method entries stay
      pressed, every one-code raw press having been released. */
  lemma UseLayoutResets(st: SubState, keymaps: seq<Keymap>, time: u32)
    requires |keymaps| > 0 && WellFormed(st.(keymaps := keymaps))
    ensures var r := UseLayoutF(st, keymaps, time);
      && r.mods == []
      && (DistinctIds(st.pressed) ==>
            r.pressed == ImEntries(st.pressed)
            && forall e :: e in st.pressed && OneCodeRaw(e) ==> ReleaseOf(e, time) in r.sent[|st.sent|..])
  {
    SelectKeymapSwitches(st.(keymaps := keymaps, keymapIdx := None), 0, time);
  }

  // ---------------------------------------------------------------------
  // Properties of pressing

  /** The codes of the key presses in a list of requests, in order. */
  function Presses(reqs: seq<Request>): seq<nat>
  {
    if reqs == [] then []
    else (if IsPress(reqs[0]) then [reqs[0].vk.code] else []) + Presses(reqs[1..])
  }

  lemma {:induction false} PressesConcat(a: seq<Request>, b: seq<Request>)
    ensures Presses(a + b) == Presses(a) + Presses(b)
  {
    if a == [] {
      assert a + b == b;
    } else {
      var head := if IsPress(a[0]) then [a[0].vk.code] else [];
      assert (a + b)[0] == a[0] && (a + b)[1..] == a[1..] + b;
      assert Presses(a + b) == head + Presses(a[1..] + b);
      assert Presses(a) == head + Presses(a[1..]);
      PressesConcat(a[1..], b);
      assert head + (Presses(a[1..]) + Presses(b)) == (head + Presses(a[1..])) + Presses(b);
    }
  }

  lemma {:induction false} PressesOfReleases(reqs: seq<Request>)
    requires forall k :: 0 <= k < |reqs| ==> ReleaseOnly(reqs[k])
    ensures Presses(reqs) == []
  {
    if reqs != [] {
      assert ReleaseOnly(reqs[0]);
      PressesOfReleases(reqs[1..]);
    }
  }

  /** On the raw path, the key codes are pressed once each, in order; the
      releases of other keys that keymap switches cause press nothing. */
  lemma {:induction false} RawPressesInOrder(st: SubState, kcs: seq<KeyCode>, count: nat, time: u32)
    requires WellFormed(st) && forall kc :: kc in kcs ==> kc.keymapIdx < |st.keymaps|
    ensures var r := PressKeycodesF(st, kcs, count, time);
      Presses(r.sent[|st.sent|..]) == Codes(kcs)
    decreases |kcs|
  {
    var r := PressKeycodesF(st, kcs, count, time);
    if kcs != [] {
      var s1 := SelectKeymapF(st, kcs[0].keymapIdx, time);
      var reqs := PressRequests(kcs[0].code, count, time);
      var s2 := s1.(sent := s1.sent + reqs);
      assert forall kc :: kc in kcs[1..] ==> kc in kcs;
      RawPressesInOrder(s2, kcs[1..], count, time);
      assert r == PressKeycodesF(s2, kcs[1..], count, time);
      PressesOfPressRequests(kcs[0].code, count, time);
      PressesStep(st.sent, s1.sent, reqs, r.sent, kcs[0].code, Codes(kcs[1..]));
      CodesCons(kcs);
    }
  }

  /** One step of the raw path: releases, then the key code's requests, then
      the rest. */
  lemma PressesStep(before: seq<Request>, selected: seq<Request>, reqs: seq<Request>,
                    after: seq<Request>, code: nat, rest: seq<nat>)
    requires before <= selected && selected + reqs <= after
    requires forall k :: |before| <= k < |selected| ==> ReleaseOnly(selected[k])
    requires Presses(reqs) == [code]
    requires Presses(after[|selected + reqs|..]) == rest
    ensures Presses(after[|before|..]) == [code] + rest
  {
    var releases := selected[|before|..];
    var tail := after[|selected + reqs|..];
    assert after[|before|..] == (releases + reqs) + tail;
    PressesOfReleases(releases);
    PressesConcat(releases + reqs, tail);
    PressesConcat(releases, reqs);
  }

  /** A press past `before` in a trace that extends `selected` lies past
      `selected` when everything `selected` added takes something back. */
  lemma NoPressAmongReleases(before: seq<Request>, selected: seq<Request>, after: seq<Request>, k: nat)
    requires before <= selected <= after
    requires forall j :: |before| <= j < |selected| ==> ReleaseOnly(selected[j])
    ensures |before| <= k < |after| && IsPress(after[k]) ==> k >= |selected|
  {
    if |before| <= k < |selected| {
      assert after[k] == selected[k];
    }
  }

  lemma CodesCons(kcs: seq<KeyCode>)
    requires kcs != []
    ensures Codes(kcs) == [kcs[0].code] + Codes(kcs[1..])
  {
    var c := [kcs[0].code] + Codes(kcs[1..]);
    assert |c| == |kcs|;
    assert forall j :: 0 <= j < |kcs| ==> c[j] == kcs[j].code;
  }

  lemma PressesOfPressRequests(code: nat, count: nat, time: u32)
    ensures Presses(PressRequests(code, count, time)) == [code]
  {
    var reqs := PressRequests(code, count, time);
    assert Presses(reqs) == [code] + Presses(reqs[1..]);
    if count == 1 {
      assert reqs[1..] == [];
    } else {
      var rel := [VirtualKey(Switch(code, Released, time))];
      assert reqs[1..] == rel;
      assert Presses(rel) == Presses(rel[1..]);
      assert rel[1..] == [];
    }
  }

  /** A key of several key codes releases each key code right after
      pressing it. */
  lemma {:induction false} MultiKeycodesReleasedAtOnce(st: SubState, kcs: seq<KeyCode>, count: nat, time: u32)
    requires WellFormed(st) && forall kc :: kc in kcs ==> kc.keymapIdx < |st.keymaps|
    requires count != 1
    ensures var r := PressKeycodesF(st, kcs, count, time);
      forall k :: |st.sent| <= k < |r.sent| && IsPress(r.sent[k]) ==>
        k + 1 < |r.sent| && r.sent[k + 1] == VirtualKey(Switch(r.sent[k].vk.code, Released, time))
    decreases |kcs|
  {
    var r := PressKeycodesF(st, kcs, count, time);
    if kcs != [] {
      PressKeycodesUnfold(st, kcs, count, time);
      var s1 := SelectKeymapF(st, kcs[0].keymapIdx, time);
      var reqs := PressRequests(kcs[0].code, count, time);
      var s2 := s1.(sent := s1.sent + reqs);
      MultiKeycodesReleasedAtOnce(s2, kcs[1..], count, time);
      ReleaseFollowsPress(st.sent, s1.sent, reqs, r.sent, time);
    }
  }

  /** One step of the raw path for a key of several key codes: releases,
      then a press immediately followed by its release, then a trace in
      which every press is immediately released. */
  lemma ReleaseFollowsPress(before: seq<Request>, selected: seq<Request>, reqs: seq<Request>,
                            after: seq<Request>, time: u32)
    requires before <= selected && selected + reqs <= after
    requires forall j :: |before| <= j < |selected| ==> ReleaseOnly(selected[j])
    requires |reqs| == 2 && IsPress(reqs[0])
    requires reqs[1] == VirtualKey(Switch(reqs[0].vk.code, Released, time))
    requires forall k :: |selected + reqs| <= k < |after| && IsPress(after[k]) ==>
      k + 1 < |after| && after[k + 1] == VirtualKey(Switch(after[k].vk.code, Released, time))
    ensures forall k :: |before| <= k < |after| && IsPress(after[k]) ==>
      k + 1 < |after| && after[k + 1] == VirtualKey(Switch(after[k].vk.code, Released, time))
  {
    forall k | |before| <= k < |after| && IsPress(after[k])
      ensures k + 1 < |after| && after[k + 1] == VirtualKey(Switch(after[k].vk.code, Released, time))
    {
      NoPressAmongReleases(before, selected, after, k);
      assert after[|selected|] == reqs[0] && after[|selected| + 1] == reqs[1];
    }
  }

  /** The input method is used exactly when `CommitsAsText` holds: with an
      active input method, no modifier held and text to submit, the string
      and then a commit with the current serial are sent and nothing else;
      otherwise only virtual-keyboard requests are sent. */
  lemma PressUsesInputMethodOnlyForText(st: SubState, im: Option<ImLink>, keyId: KeyId, data: SubmitData,
                                        keycodes: seq<KeyCode>, time: u32)
    requires WellFormed(st) && forall kc :: kc in keycodes ==> kc.keymapIdx < |st.keymaps|
    ensures var r := HandlePressF(st, im, keyId, data, keycodes, time);
      && ((exists k :: |st.sent| <= k < |r.sent| && r.sent[k].InputMethod?) <==> CommitsAsText(st, im, data))
      && (CommitsAsText(st, im, data) ==>
            r.sent[|st.sent|..] == [InputMethod(ImService.CommitStringReq(data.text)),
                                    InputMethod(ImService.CommitReq(im.value.serial))])
  {
    var r := HandlePressF(st, im, keyId, data, keycodes, time);
    if CommitsAsText(st, im, data) {
      assert r.sent[|st.sent|].InputMethod?;
    }
  }

  /** On the raw path the key codes are pressed once each, in order, and
      a single key code is pressed exactly once. */
  lemma RawPressSendsKeycodes(st: SubState, im: Option<ImLink>, keyId: KeyId, data: SubmitData,
                              keycodes: seq<KeyCode>, time: u32)
    requires WellFormed(st) && forall kc :: kc in keycodes ==> kc.keymapIdx < |st.keymaps|
    requires !CommitsAsText(st, im, data)
    ensures var r := HandlePressF(st, im, keyId, data, keycodes, time);
      Presses(r.sent[|st.sent|..]) == Codes(keycodes)
  {
    RawPressesInOrder(st, keycodes, |keycodes|, time);
  }

  /** Pressing and releasing a key of one key code on the selected keymap
      sends a press and a release of that code, and forgets the key. */
  lemma PressReleaseScenario(time: u32)
    ensures var st := SubState([], [], ["K"], Some(0), []);
      var p := HandlePressF(st, None, 1, Keycodes, [KeyCode(30, 0)], time);
      var r := HandleReleaseF(p, 1, time);
      && p.sent == [VirtualKey(Switch(30, Pressed, time))]
      && r.sent == [VirtualKey(Switch(30, Pressed, time)), VirtualKey(Switch(30, Released, time))]
      && r.pressed == []
  {
    PressOneKeycode(time);
    ReleaseOneKeycode(time);
  }

  lemma PressOneKeycode(time: u32)
    ensures var st := SubState([], [], ["K"], Some(0), []);
      HandlePressF(st, None, 1, Keycodes, [KeyCode(30, 0)], time)
      == st.(sent := [VirtualKey(Switch(30, Pressed, time))], pressed := [(1, VirtualKeyboard([KeyCode(30, 0)]))])
  {
    var st := SubState([], [], ["K"], Some(0), []);
    var kcs := [KeyCode(30, 0)];
    var s2 := st.(sent := [VirtualKey(Switch(30, Pressed, time))]);
    PressKeycodesUnfold(st, kcs, 1, time);
    assert PressKeycodesF(st, kcs, 1, time) == PressKeycodesF(s2, [], 1, time) == s2;
  }

  lemma ReleaseOneKeycode(time: u32)
    ensures var p := SubState([], [(1, VirtualKeyboard([KeyCode(30, 0)]))], ["K"], Some(0),
                              [VirtualKey(Switch(30, Pressed, time))]);
      HandleReleaseF(p, 1, time)
      == p.(pressed := [], sent := p.sent + [VirtualKey(Switch(30, Released, time))])
  {
    var p := SubState([], [(1, VirtualKeyboard([KeyCode(30, 0)]))], ["K"], Some(0),
                      [VirtualKey(Switch(30, Pressed, time))]);
    assert Position(p.pressed, HasId(1)) == Some(0);
    assert RemoveAt(p.pressed, 0) == [];
  }

  /** Text typed with an active input method is committed, and releasing
      the key sends nothing more. */
  lemma CommitTextScenario(time: u32)
    ensures var st := SubState([], [], ["K"], Some(0), []);
      var p := HandlePressF(st, Some(ImLink(true, 5)), 1, Text("a"), [KeyCode(38, 0)], time);
      var r := HandleReleaseF(p, 1, time);
      && p.sent == [InputMethod(ImService.CommitStringReq("a")), InputMethod(ImService.CommitReq(5))]
      && r.sent == p.sent && r.pressed == []
  {
    var st := SubState([], [], ["K"], Some(0), []);
    var p := HandlePressF(st, Some(ImLink(true, 5)), 1, Text("a"), [KeyCode(38, 0)], time);
    assert p.pressed == [(1, IMService)];
    assert Position(p.pressed, HasId(1)) == Some(0);
    assert RemoveAt(p.pressed, 0) == [];
  }

  /** The entry holds modifier `m`. */
  function HasModifier(m: Modifier): ((KeyId, Modifier)) -> bool
  {
    (e: (KeyId, Modifier)) => e.1 == m
  }
}

=== FILE: util.dfy ===
/** Assorted helpers of `src/util.rs`: first-match removal from a vector,
    integer ceiling division on `i32`, the `Rational` helper type and the
    numbered cycling iterator. */
module Util {
  import opened Wrappers

  const I32_MIN: int := -0x8000_0000
  const I32_MAX: int := 0x7fff_ffff
  const U32_MODULUS: int := 0x1_0000_0000

  /** Rust's `i32` and `u32`, as ranges of the unbounded integers. */
  type i32 = x: int | I32_MIN <= x <= I32_MAX
  type u32 = x: int | 0 <= x < U32_MODULUS

  // ---------------------------------------------------------------------
  // Searching and removing

  /** `Iterator::position`: the index of the first element satisfying `pred`. */
  function Position<T>(s: seq<T>, pred: T -> bool): (r: Option<nat>)
    ensures r.Some? ==> r.value < |s| && pred(s[r.value])
    ensures r.Some? ==> forall j :: 0 <= j < r.value ==> !pred(s[j])
    ensures r.None? <==> forall j :: 0 <= j < |s| ==> !pred(s[j])
  {
    if s == [] then None
    else if pred(s[0]) then Some(0)
    else match Position(s[1..], pred)
      case None => None
      case Some(i) => Some(i + 1)
  }

  /** `Vec::remove`: the sequence without its `i`-th element. */
  function RemoveAt<T>(s: seq<T>, i: nat): (r: seq<T>)
    requires i < |s|
    ensures |r| == |s| - 1
    ensures forall j :: 0 <= j < i ==> r[j] == s[j]
    ensures forall j :: i <= j < |r| ==> r[j] == s[j + 1]
  {
    s[..i] + s[i + 1..]
  }

  /** What `vec_remove` leaves behind and returns: the vector without its
      first element satisfying `pred`, and that element. */
  function RemoveFirst<T>(v: seq<T>, pred: T -> bool): (r: (seq<T>, Option<T>))
    ensures r.1.None? <==> forall j :: 0 <= j < |v| ==> !pred(v[j])
    ensures r.1.None? ==> r.0 == v
    ensures r.1.Some? ==> exists i :: 0 <= i < |v| && r.1.value == v[i] && pred(v[i])
                                  && (forall j :: 0 <= j < i ==> !pred(v[j]))
                                  && r.0 == v[..i] + v[i + 1..]
  {
    match Position(v, pred)
    case None => (v, None)
    case Some(i) => (RemoveAt(v, i), Some(v[i]))
  }

  /** `vec_remove`: removes the first matching item of `v` and returns it;
      the vector that the source updates in place is returned as `v'`. */
  method VecRemove<T>(v: seq<T>, pred: T -> bool) returns (v': seq<T>, removed: Option<T>)
    ensures (v', removed) == RemoveFirst(v, pred)
  {
    var i := 0;
    while i < |v| && !pred(v[i])
      invariant 0 <= i <= |v|
      invariant forall j :: 0 <= j < i ==> !pred(v[j])
    {
      i := i + 1;
    }
    if i < |v| {
      removed := Some(v[i]);
      v' := v[..i] + v[i + 1..];
    } else {
      removed := None;
      v' := v;
    }
  }

  // ---------------------------------------------------------------------
  // Integer division as Rust does it

  function Abs(x: int): nat { if x < 0 then -x else x }

  /** Rust's `/` on integers: the quotient truncated toward zero. */
  function TruncDiv(a: int, b: int): int
    requires b != 0
  {
    var q := Abs(a) / Abs(b);
    if (a < 0) == (b < 0) then q else -q
  }

  /** Rust's `%` on integers: the remainder of the truncated division. */
  function TruncRem(a: int, b: int): int
    requires b != 0
  {
    a - b * TruncDiv(a, b)
  }

  /** The truncated division's defining properties: `a == b * q + m`, the
      remainder has the sign of `a` and is smaller than `b` in magnitude. */
  lemma TruncDivRem(a: int, b: int)
    requires b != 0
    ensures a == b * TruncDiv(a, b) + TruncRem(a, b)
    ensures Abs(TruncRem(a, b)) < Abs(b)
    ensures a >= 0 ==> TruncRem(a, b) >= 0
    ensures a < 0 ==> TruncRem(a, b) <= 0
    ensures (a < 0) == (b < 0) ==> TruncDiv(a, b) >= 0
    ensures (a < 0) != (b < 0) ==> TruncDiv(a, b) <= 0
  {
    var q, r := Abs(a) / Abs(b), Abs(a) % Abs(b);
    assert 0 <= r < Abs(b);
    assert q >= 0 by {
      if q < 0 {
        MulMonotone(q, -1, Abs(b));
      }
    }
    TruncRemMagnitude(a, b);
  }

  /** The truncated remainder is the Euclidean remainder of the magnitudes,
      with the sign of `a`. */
  lemma TruncRemMagnitude(a: int, b: int)
    requires b != 0
    ensures TruncRem(a, b) == if a < 0 then -(Abs(a) % Abs(b)) else Abs(a) % Abs(b)
  {
    var x: int, y: int := Abs(a), Abs(b);
    var q, r := x / y, x % y;
    assert x == y * q + r;
    TruncProduct(a, b);
  }

  /** The product of the divisor and the truncated quotient, in terms of
      the magnitudes. */
  lemma TruncProduct(a: int, b: int)
    requires b != 0
    ensures b * TruncDiv(a, b) == if a < 0 then -(Abs(b) * (Abs(a) / Abs(b))) else Abs(b) * (Abs(a) / Abs(b))
  {
    var y: int, q: int := Abs(b), Abs(a) / Abs(b);
    var t := TruncDiv(a, b);
    if b > 0 && a >= 0 {
      assert b * t == y * q;
    } else if b > 0 {
      assert b * t == y * (-q) == -(y * q);
    } else if a >= 0 {
      assert b * t == (-y) * (-q) == y * q;
    } else {
      assert b * t == (-y) * q == -(y * q);
    }
  }

  /** `q` is the ceiling of the rational `a / b`, stated without division. */
  ghost predicate IsCeilQuotient(q: int, a: int, b: int)
  {
    if b > 0 then (q - 1) * b < a <= q * b
    else if b < 0 then q * b <= a < (q - 1) * b
    else false
  }

  /** The ceiling of a quotient is unique. */
  lemma CeilQuotientUnique(q: int, q': int, a: int, b: int)
    requires IsCeilQuotient(q, a, b) && IsCeilQuotient(q', a, b)
    ensures q == q'
  {
    if b > 0 {
      MulCancel(q - 1, q', b);
      MulCancel(q' - 1, q, b);
    } else {
      assert (q - 1) * b == -((q - 1) * -b) && q' * b == -(q' * -b);
      assert (q' - 1) * b == -((q' - 1) * -b) && q * b == -(q * -b);
      MulCancel(q - 1, q', -b);
      MulCancel(q' - 1, q, -b);
    }
  }

  lemma MulMonotone(x: int, y: int, k: nat)
    requires x <= y
    ensures x * k <= y * k
  {
  }

  lemma MulCancel(x: int, y: int, b: int)
    requires b > 0 && x * b < y * b
    ensures x < y
  {
  }

  /** Precondition of Rust's `i32` division: no division by zero and no
      overflow of `i32::MIN / -1`. */
  predicate DivisionDefined(a: i32, b: i32)
  {
    b != 0 && !(a == I32_MIN && b == -1)
  }

  /** `impl DivCeil for i32`, AS WRITTEN in the source: the truncated
      quotient, plus one whenever the truncated remainder is not zero.
      It is the ceiling when the division is exact or the operands have the
      same sign, and one more than the ceiling otherwise. */
  function DivCeilAsWritten(a: i32, b: i32): (r: int)
    requires DivisionDefined(a, b)
    ensures I32_MIN <= r <= I32_MAX
    ensures TruncRem(a, b) == 0 || (a < 0) == (b < 0) ==> IsCeilQuotient(r, a, b)
    ensures TruncRem(a, b) != 0 && (a < 0) != (b < 0) ==> IsCeilQuotient(r - 1, a, b)
  {
    var d := TruncDiv(a, b);
    var m := TruncRem(a, b);
    DivCeilBounds(a, b);
    CeilCases(a, b);
    if m == 0 then d else d + 1
  }

  /** The ceiling division that the trait's name promises (and that newer
      Rust's own `div_ceil` computes): rounds toward positive infinity for
      every sign of the operands. It is the corrected counterpart of
      `DivCeilAsWritten`. */
  function DivCeil(a: i32, b: i32): (r: i32)
    requires DivisionDefined(a, b)
    ensures IsCeilQuotient(r, a, b)
    ensures a >= 0 && b > 0 ==> r >= 0 && r * b >= a && forall q :: q * b >= a ==> r <= q
  {
    var d := TruncDiv(a, b);
    var m := TruncRem(a, b);
    DivCeilBounds(a, b);
    CeilCases(a, b);
    var r := if m == 0 then d else if (a < 0) == (b < 0) then d + 1 else d;
    assert a >= 0 && b > 0 ==> r >= 0 && forall q :: q * b >= a ==> r <= q by {
      if a >= 0 && b > 0 {
        TruncDivRem(a, b);
        forall q | q * b >= a ensures r <= q {
          MulCancel(r - 1, q, b);
        }
      }
    }
    r
  }

  /** The truncated quotient stays within `i32` and, when not exact, so
      does the quotient plus one. */
  lemma DivCeilBounds(a: i32, b: i32)
    requires DivisionDefined(a, b)
    ensures I32_MIN <= TruncDiv(a, b) <= I32_MAX
    ensures TruncRem(a, b) != 0 ==> I32_MIN < TruncDiv(a, b) + 1 <= I32_MAX
  {
    var x: nat, y: nat := Abs(a), Abs(b);
    if y == 1 {
      assert x / y == x;
      assert TruncRem(a, b) == 0;
    } else {
      DivAntitone(x, 2, y);
      assert x / y <= 0x4000_0000;
    }
  }

  lemma DivAntitone(x: nat, y: nat, z: nat)
    requires 0 < y <= z
    ensures x / z <= x / y
  {
    var q, p := x / z, x / y;
    assert q * z <= x;
    MulMonotone(y, z, q);
    assert q * y <= x;
    assert x < (p + 1) * y by { assert x == p * y + x % y; assert (p + 1) * y == p * y + y; }
    MulCancel(q, p + 1, y);
  }

  /** Where the ceiling lies relative to the truncated quotient. */
  lemma CeilCases(a: int, b: int)
    requires b != 0
    ensures TruncRem(a, b) == 0 ==> IsCeilQuotient(TruncDiv(a, b), a, b)
    ensures TruncRem(a, b) != 0 && (a < 0) == (b < 0) ==> IsCeilQuotient(TruncDiv(a, b) + 1, a, b)
    ensures TruncRem(a, b) != 0 && (a < 0) != (b < 0) ==> IsCeilQuotient(TruncDiv(a, b), a, b)
  {
    TruncDivRem(a, b);
    var d, m := TruncDiv(a, b), TruncRem(a, b);
    assert a == b * d + m;
    assert (d - 1) * b == b * d - b;
    assert (d + 1) * b == b * d + b;
    assert d * b == b * d;
  }

  /** The input that shows the discrepancy: `-7 / 2` is `-3.5`, whose
      ceiling is `-3`, but the code as written answers `-2`. */
  lemma DivCeilAsWrittenOffByOne()
    ensures DivCeilAsWritten(-7, 2) == -2
    ensures IsCeilQuotient(-3, -7, 2) && !IsCeilQuotient(-2, -7, 2)
    ensures DivCeil(-7, 2) == -3
  {
    assert TruncDiv(-7, 2) == -3;
    assert TruncRem(-7, 2) == -1;
  }

  // ---------------------------------------------------------------------
  // Rational

  /** `Rational<i32>`: the numerator type is `i32`, the only type with a
      `DivCeil` implementation. */
  datatype Rational = Rational(numerator: i32, denominator: u32)

  /** Rust's `u32 as i32` cast, which wraps values above `i32::MAX`. */
  function U32AsI32(x: u32): (r: i32)
    ensures r == x || r == x - U32_MODULUS
    ensures x <= I32_MAX <==> r >= 0
  {
    if x <= I32_MAX then x else x - U32_MODULUS
  }

  /** The real value a rational stands for. */
  ghost function Value(r: Rational): real
    requires r.denominator != 0
  {
    r.numerator as real / r.denominator as real
  }

  /** `Rational::ceil`: `numerator.div_ceil(denominator as i32)`, with the
      division AS WRITTEN. The cast wraps, so a denominator above `i32::MAX`
      divides by a negative number. The result is the ceiling when the
      division is exact or numerator and cast denominator have the same sign,
      and one above the ceiling otherwise. */
  function RationalCeil(r: Rational): (c: i32)
    requires r.denominator != 0
    requires DivisionDefined(r.numerator, U32AsI32(r.denominator))
    ensures var n, d := r.numerator, U32AsI32(r.denominator);
      TruncRem(n, d) == 0 || (n < 0) == (d < 0) ==> IsCeilQuotient(c, n, d)
    ensures var n, d := r.numerator, U32AsI32(r.denominator);
      TruncRem(n, d) != 0 && (n < 0) != (d < 0) ==> IsCeilQuotient(c - 1, n, d)
    ensures r.denominator <= I32_MAX && r.numerator >= 0 ==>
      (c - 1) * r.denominator < r.numerator <= c * r.denominator
  {
    DivCeilAsWritten(r.numerator, U32AsI32(r.denominator))
  }

  /** The ceiling of the rational itself: the numerator over the unsigned
      denominator, with no cast, for every sign of the numerator. The
      result lies between zero and the numerator, so it fits in i32. */
  function RationalCeilCorrected(r: Rational): (c: i32)
    requires r.denominator != 0
    ensures (c - 1) * r.denominator < r.numerator <= c * r.denominator
    ensures r.numerator >= 0 ==> 0 <= c <= r.numerator
    ensures r.numerator < 0 ==> r.numerator <= c <= 0
  {
    var n: int := r.numerator;
    CeilOfFraction(n, r.denominator);
    CeilBetweenZeroAnd(n, r.denominator, -((-n) / r.denominator));
    -((-n) / r.denominator)
  }

  /** With Dafny's Euclidean division and a positive divisor, `-((-n) / d)`
      is the ceiling of `n / d`. */
  lemma CeilOfFraction(n: int, d: int)
    requires d > 0
    ensures var c := -((-n) / d); (c - 1) * d < n <= c * d
  {
    var q := (-n) / d;
    assert q * d <= -n < q * d + d;
    assert (-q - 1) * d == -(q * d) - d && (-q) * d == -(q * d);
  }

  /** The ceiling of `n / d`, for a positive `d`, lies between zero and `n`. */
  lemma CeilBetweenZeroAnd(n: int, d: int, c: int)
    requires d > 0 && (c - 1) * d < n <= c * d
    ensures n >= 0 ==> 0 <= c <= n
    ensures n < 0 ==> n <= c <= 0
  {
    if n >= 0 {
      assert 0 <= c by { MulCancel(-1, c, d); }
      assert c <= n by { MulMonotone(1, d, n); MulCancel(c - 1, n, d); }
    } else {
      assert c <= 0 by { MulCancel(c - 1, 0, d); }
      assert n <= c by {
        MulMonotone(1, d, -n);
        assert (-n) * d == -(n * d) && (n - 1) * d == n * d - d;
        MulCancel(n - 1, c, d);
      }
    }
  }

  /** The rationals that show the discrepancy: `-7/2` rounds up to `-2`
      instead of `-3`; the denominator `2^31` wraps to `i32::MIN`, so
      `-1/2^31` rounds up to `1` instead of `0`; and `2^32 - 1` wraps to
      `-1`, so `1/(2^32 - 1)` rounds up to `-1` instead of `1`. */
  lemma RationalCeilOffByOne()
    ensures RationalCeil(Rational(-7, 2)) == -2 && RationalCeilCorrected(Rational(-7, 2)) == -3
    ensures U32AsI32(0x8000_0000) == I32_MIN && U32AsI32(0xFFFF_FFFF) == -1
    ensures RationalCeil(Rational(-1, 0x8000_0000)) == 1
    ensures RationalCeilCorrected(Rational(-1, 0x8000_0000)) == 0
    ensures RationalCeil(Rational(1, 0xFFFF_FFFF)) == -1
    ensures RationalCeilCorrected(Rational(1, 0xFFFF_FFFF)) == 1
  {
    DivCeilAsWrittenOffByOne();
    assert RationalCeil(Rational(-1, 0x8000_0000)) == 1 by {
      assert TruncDiv(-1, I32_MIN) == 0 && TruncRem(-1, I32_MIN) == -1;
    }
    assert RationalCeil(Rational(1, 0xFFFF_FFFF)) == -1 by {
      assert TruncDiv(1, -1) == -1 && TruncRem(1, -1) == 0;
    }
    assert RationalCeilCorrected(Rational(-7, 2)) == -3;
    assert RationalCeilCorrected(Rational(-1, 0x8000_0000)) == 0;
    assert RationalCeilCorrected(Rational(1, 0xFFFF_FFFF)) == 1;
  }

  /** `Rational * i32`: scales the numerator and keeps the denominator, so
      the value is multiplied by `m`. Overflow of the numerator panics in
      Rust's debug builds and is excluded here. */
  function MulInt(r: Rational, m: i32): (p: Rational)
    requires I32_MIN <= r.numerator * m <= I32_MAX
    ensures p.numerator == r.numerator * m && p.denominator == r.denominator
    ensures r.denominator != 0 ==> Value(p) == Value(r) * m as real
  {
    var p := Rational(r.numerator * m, r.denominator);
    assert r.denominator != 0 ==> Value(p) == Value(r) * m as real by {
      if r.denominator != 0 { MulRealFraction(r.numerator, m, r.denominator, 1); }
    }
    p
  }

  /** `Rational * Rational`: multiplies numerators and denominators
      separately, so the value is the product of the values. */
  function Mul(a: Rational, b: Rational): (p: Rational)
    requires I32_MIN <= a.numerator * b.numerator <= I32_MAX
    requires a.denominator * b.denominator < U32_MODULUS
    ensures p.numerator == a.numerator * b.numerator
    ensures p.denominator == a.denominator * b.denominator
    ensures a.denominator != 0 && b.denominator != 0 ==>
      p.denominator != 0 && Value(p) == Value(a) * Value(b)
  {
    var p := Rational(a.numerator * b.numerator, a.denominator * b.denominator);
    assert a.denominator != 0 && b.denominator != 0 ==>
      p.denominator != 0 && Value(p) == Value(a) * Value(b) by {
      if a.denominator != 0 && b.denominator != 0 {
        MulRealFraction(a.numerator, b.numerator, a.denominator, b.denominator);
      }
    }
    p
  }

  lemma MulRealFraction(n: int, m: int, d: int, e: int)
    requires d != 0 && e != 0
    ensures (n * m) as real / (d * e) as real == (n as real / d as real) * (m as real / e as real)
  {
    assert (n * m) as real == n as real * m as real;
    assert (d * e) as real == d as real * e as real;
  }

  // ---------------------------------------------------------------------
  // cycle_count

  /** One pass over the items, each paired with the pass number `idx`. */
  function NumberedCopy<T>(items: seq<T>, idx: nat): (r: seq<(T, nat)>)
    ensures |r| == |items|
    ensures forall j :: 0 <= j < |items| ==> r[j] == (items[j], idx)
  {
    seq(|items|, j requires 0 <= j < |items| => (items[j], idx))
  }

  /** The first `cycles` passes of `cycle_count(items)`: the items repeated
      forever, each paired with the number of the pass it belongs to. */
  function CycleCount<T>(items: seq<T>, cycles: nat): (r: seq<(T, nat)>)
    ensures |r| == cycles * |items|
  {
    if cycles == 0 then [] else CycleCount(items, cycles - 1) + NumberedCopy(items, cycles - 1)
  }

  /** The `k`-th item that `cycle_count` yields is `(items[k mod n], k div n)`. */
  lemma {:induction false} CycleCountAt<T>(items: seq<T>, cycles: nat, k: nat)
    requires k < cycles * |items|
    ensures |CycleCount(items, cycles)| == cycles * |items|
    ensures CycleCount(items, cycles)[k] == (items[k % |items|], k / |items|)
  {
    var n := |items|;
    var prev := CycleCount(items, cycles - 1);
    assert (cycles - 1) * n + n == cycles * n;
    if k < (cycles - 1) * n {
      CycleCountAt(items, cycles - 1, k);
    } else {
      var j := k - (cycles - 1) * n;
      assert 0 <= j < n;
      DivModUnique(k, n, cycles - 1, j);
    }
  }

  lemma DivModUnique(k: int, n: int, q: int, j: int)
    requires n > 0 && 0 <= j < n && k == q * n + j
    ensures k / n == q && k % n == j
  {
    var q', j' := k / n, k % n;
    assert k == q' * n + j' && 0 <= j' < n;
    assert (q + 1) * n == q * n + n;
    assert (q' + 1) * n == q' * n + n;
    MulCancel(q', q + 1, n);
    MulCancel(q, q' + 1, n);
  }

  /** The repository's own example: the first seven items of
      `cycle_count(5..8)`. */
  lemma CycleCountExample()
    ensures CycleCount([5, 6, 7], 3)[..7]
         == [(5, 0), (6, 0), (7, 0), (5, 1), (6, 1), (7, 1), (5, 2)]
  {
    var items := [5, 6, 7];
    forall k | 0 <= k < 7 ensures CycleCount(items, 3)[k] == (items[k % 3], k / 3) {
      CycleCountAt(items, 3, k);
    }
  }
}

=== FILE: wrappers.dfy ===
/** Option and Result values shared by every module of the model. */
module Wrappers {

  /** Rust's `Option<T>`. */
  datatype Option<+T> = None | Some(value: T)

  /** Rust's `Result<T, E>`. */
  datatype Result<+T, +E> = Ok(value: T) | Err(error: E)
}
